=== FILE: README.md ===
# Linalg subview promotion, modelled in Dafny

This project models the linalg **subview-promotion** rewrite of MLIR
(`mlir/lib/Dialect/Linalg/Transforms/Promotion.cpp`) as a pure transformation,
and proves properties of that model.

The rewrite takes a linalg op whose operands are in part results of
`memref.subview`. For each selected subview it:

- allocates a local buffer of the full tile's size;
- cuts out a partial view of the subview's own size;
- optionally zero-fills the full tile;
- copies the original data in.

It then runs the op on the promoted views, copies the promoted outputs back,
and releases the buffers.

The model has six modules. Each is a file:

- `IR` (`ir.dfy`) is the vocabulary:
  - index sizes, which are a constant or a dynamic symbol evaluated by a run-time environment;
  - subviews, with kept and dropped dimensions;
  - the op's operands, the values the rewrite creates, and the actions it emits
    (`Alloc`, `Fill`, `Copy`, `Barrier`, `Op`, `Dealloc`).
- `Tiling` (`tiling.dfy`) is the per-dimension full-tile and partial-tile sizing of
  `promoteSubviewAsNewBuffer`. The value-bounds analysis is a parameter: a map
  from dynamic size symbols to closed upper bounds. Its soundness is a predicate
  over run-time environments.
- `Allocation` (`allocation.dfy`) holds the allocation, deallocation and copy callbacks:
  - `allocBuffer` and the default allocation and deallocation callbacks;
  - the GPU workgroup and private allocators;
  - the copy helpers.

  Each callback is a tag of a closed datatype rather than a function pointer.
  A caller-supplied copy callback is `ExternalCopy`, which may refuse.
- `Policy` (`policy.dfy`) is the `LinalgOpInstancePromotionOptions` constructor. It
  decides which operands are promoted, which are copied in, and which full-tile flag
  each subview gets. That flag map is keyed by the operand value, as in the source.
- `Promotion` (`promotion.dfy`) holds `promoteSubviewAsNewBuffer`, the zero-fill
  dispatch and the first `promoteSubViews` overload: the allocation and fill loop,
  then the copy-in loop.
- `Rewrite` (`rewrite.dfy`) holds the second `promoteSubViews` overload:
  - the operand splice, the write-back pairs, the copy-outs and the deallocations;
  - `promoteSubviewsPrecondition`;
  - the public `promoteSubViews` entry point.

The source reports every failure the same way. The model's `Result` carries a tag
that says which step refused, so that contracts can name the failure conditions.
Operations are pure functions, so the precondition check trivially gives the same
answer when repeated. The data layout is a parameter `layout: ElemType -> nat`
giving each element type's width in bytes.

The rewrite's output is a `Rewritten` value. It holds the promotion info per
operand number, the op's new operand list, and the actions emitted before the op
(allocations and fills, then copy-ins) and after it (copy-outs, then deallocations).
`Rewritten.Trace()` puts them in the order they are created. This is program
order, except for the GPU allocations: they are marked `atFunctionEntry` and
sit at the top of the enclosing function. The trace also takes the caller's
insertion point to be just before the op: `promoteSubViews` creates the setup
and copy-ins wherever the caller's builder points, and only the copy-outs and
deallocations are placed relative to the op itself.

Two requires clauses exclude crashes of the source:

- `PromoteSubViews` and `PromoteOperands` require the op to have pure buffer
  semantics. The source asserts this.
- They also require that the default deallocator, when it frees heap buffers, is
  only paired with the default allocator. The default deallocator casts the full
  view to the `memref.view` that the default allocator creates. The GPU allocators
  return a plain allocation, which makes that cast fail.

## Model

| member | source | states |
|---|---|---|
| Tiling.FullSize | mlir/lib/Dialect/Linalg/Transforms/Promotion.cpp:257-268 | The full size is the size itself when it is a constant or the original size is requested. It is a constant exactly when the size is one or a bound was derived, and a derived bound is used exactly as derived. When it is dynamic it is the size itself. In every run where the bound analysis is sound it is at least the size. |
| Tiling.TileSizes | mlir/lib/Dialect/Linalg/Transforms/Promotion.cpp:248-274 | There is one (full, partial) pair per kept dimension. The partial sizes are the kept sizes. Each full size is the full size of its partial size. In every sound run, partial is at most full in every dimension. |
| Tiling.KeptSizesMembers | mlir/lib/Dialect/Linalg/Transforms/Promotion.cpp:250-252 | The kept sizes are exactly the sizes of the dimensions the subview does not drop (both directions). |
| Tiling.KeptSizesPositions | mlir/lib/Dialect/Linalg/Transforms/Promotion.cpp:250-273 | There are exactly as many kept sizes as dimensions the subview does not drop. The size of a kept dimension sits at the result dimension index reached before it, so the kept sizes are the kept dimensions' sizes in order. |
| Tiling.KeptSizesWithoutDrops | mlir/lib/Dialect/Linalg/Transforms/Promotion.cpp:250-273 | Without rank reduction every dimension's size is kept, in order. |
| Tiling.StaticTileIsExact | mlir/lib/Dialect/Linalg/Transforms/Promotion.cpp:258-260 | A subview whose kept sizes are all constants is promoted into a tile of exactly its own sizes. |
| Allocation.AllocSize | mlir/lib/Dialect/Linalg/Transforms/Promotion.cpp:102-104 | The folded element count is static exactly when every size is a constant. An empty size list gives the count 1. |
| Allocation.AllocSizeIsProduct | mlir/lib/Dialect/Linalg/Transforms/Promotion.cpp:102-104 | Whatever was folded, the count evaluates to the product of the sizes in every run. |
| Allocation.AllocBuffer | mlir/lib/Dialect/Linalg/Transforms/Promotion.cpp:44-83 | Emits one allocation of a one-dimensional `i8` buffer in the configured memory space. It is static exactly when the count is constant. It holds `width * count` bytes in every run. It goes on the stack exactly when `useAlloca`, with the configured alignment. |
| Allocation.DefaultAllocBuffer | mlir/lib/Dialect/Linalg/Transforms/Promotion.cpp:89-116 | Emits one owned `i8` allocation, static exactly when all bounds are constants. It returns a view at byte offset 0 whose sizes are the bounding sizes and whose element type is the subview's. |
| Allocation.DefaultAllocBytes | mlir/lib/Dialect/Linalg/Transforms/Promotion.cpp:89-116 | The default buffer holds the element width times the product of the bounding sizes, in bytes, in every run. |
| Allocation.DefaultDeallocBuffer | mlir/lib/Dialect/Linalg/Transforms/Promotion.cpp:121-130 | Emits a dealloc exactly when not `useAlloca`, and it frees the buffer underneath the view. |
| Allocation.DefaultDeallocFreesHeapBuffer | mlir/lib/Dialect/Linalg/Transforms/Promotion.cpp:121-130 | The default deallocator frees exactly the buffer the default allocator made, and nothing when that buffer is on the stack. |
| Allocation.AllocateInAddressSpace | mlir/lib/Dialect/Linalg/Transforms/Promotion.cpp:437-469 | Succeeds exactly inside a function, with constant bounds, for the workgroup or private space. On success it emits one allocation at function entry of a buffer shaped by the bounds in that space: on the heap for workgroup memory and on the stack for private memory. |
| Allocation.AllocateWorkgroupMemory | mlir/lib/Dialect/Linalg/Transforms/Promotion.cpp:472-478 | Succeeds exactly inside a function with constant bounds, and then gives a workgroup-space heap buffer. |
| Allocation.AllocateGpuPrivateMemory | mlir/lib/Dialect/Linalg/Transforms/Promotion.cpp:497-502 | Succeeds exactly inside a function with constant bounds, and then gives a private-space stack buffer. |
| Allocation.Allocate | mlir/lib/Dialect/Linalg/Transforms/Promotion.cpp:191-200 | The bound allocator succeeds exactly as its backend does. On success it allocates one buffer owned by the operand, and the full view's sizes are the bounds. |
| Allocation.Deallocate | mlir/lib/Dialect/Linalg/Transforms/Promotion.cpp:202-208 | The bound deallocator emits one dealloc of the view's buffer with the default callback on the heap, and nothing for the stack or the GPU callbacks. |
| Allocation.CopyToWorkgroupMemory | mlir/lib/Dialect/Linalg/Transforms/Promotion.cpp:488-494 | Emits exactly three actions: a barrier, one copy from source to destination, and a barrier. |
| Allocation.CopyData | mlir/lib/Dialect/Linalg/Transforms/Promotion.cpp:210-218 | The bound copy succeeds exactly unless the external callback refuses the pair. On success it emits exactly one copy of the pair. For the workgroup callback that copy is a `memref.copy` between two barriers, three actions in all. Every other callback emits the copy alone. |
| Policy.MakeInstanceOptions | mlir/lib/Dialect/Linalg/Transforms/Promotion.cpp:163-219 | An operand is selected exactly when it is a subview passing the operand filter, in operand order. It is copied in exactly when selected and not an unread operand of a `linalg.generic`. The flag map holds exactly the selected subviews, and each is mapped to the padded bit of the last selected operand using it. Absent callbacks become the defaults. |
| Policy.CollectSelections | mlir/lib/Dialect/Linalg/Transforms/Promotion.cpp:174-181 | After the first `n` operands, the selections are the promotable ones among them, strictly increasing and each naming its own subview. |
| Policy.CollectCopyIn | mlir/lib/Dialect/Linalg/Transforms/Promotion.cpp:182-186 | After the first `n` operands, the copy-in set is the promotable operands that are not unread operands of a `linalg.generic`: every promotable operand of any other op, and those of a generic op whose payload uses them. |
| Policy.CollectFlags | mlir/lib/Dialect/Linalg/Transforms/Promotion.cpp:187-187 | After the first `n` operands, the flag map has exactly the selected subviews as keys. Each holds the caller's padded bit of the last selected operand using that subview. |
| Policy.DistinctSubViewsKeepTheirFlags | mlir/lib/Dialect/Linalg/Transforms/Promotion.cpp:168-187 | When no other operand is the same subview, the operand's flag is the caller's bit for it, padded with the default. |
| Promotion.PromoteSubviewAsNewBuffer | mlir/lib/Dialect/Linalg/Transforms/Promotion.cpp:238-286 | Fails exactly when the allocator fails. On success it emits one allocation of an owned buffer. The full view has the full-tile sizes. The partial view is the full view's window at the origin with unit strides and the subview's kept sizes, and it fits inside the full view in every sound run. |
| Promotion.ZeroFill | mlir/lib/Dialect/Linalg/Transforms/Promotion.cpp:310-326 | A fill value exists exactly for scalar and complex element types, and it is their zero. |
| Promotion.ZeroFillIsTheZero | mlir/lib/Dialect/Linalg/Transforms/Promotion.cpp:310-326 | The fill value is the one and only zero of the element type. |
| Promotion.AllocateAndFillOne | mlir/lib/Dialect/Linalg/Transforms/Promotion.cpp:296-329 | One iteration succeeds exactly when the allocation succeeds and, for a flagged subview, a zero exists. It emits the allocation, then a zero fill of the full view exactly when flagged. |
| Promotion.Gather | mlir/lib/Dialect/Linalg/Transforms/Promotion.cpp:296-330 | The loop succeeds exactly when every iteration does, and otherwise fails with the error of a failing iteration. |
| Promotion.AllocateAndFill | mlir/lib/Dialect/Linalg/Transforms/Promotion.cpp:296-330 | The allocation loop succeeds exactly when every selection can be allocated (and zero-filled when flagged). A failure is an allocation failure or a missing zero. |
| Promotion.AllocateAndFillSetup | mlir/lib/Dialect/Linalg/Transforms/Promotion.cpp:296-330 | The info map's keys are the selected operands. Only allocations and fills are emitted, one allocation per selection and in selection order. |
| Promotion.AllocateAndFillFills | mlir/lib/Dialect/Linalg/Transforms/Promotion.cpp:306-329 | Every flagged selection's full view is filled with its element type's zero. Every fill is one of those. |
| Promotion.AllocateAndFillAt | mlir/lib/Dialect/Linalg/Transforms/Promotion.cpp:296-330 | The setup in order: selection `j`'s allocation is at position `SetupStart(io, svs, j)`, and for a flagged selection the next position is the zero fill of that selection's full view. The setup ends after the last selection's actions, so each flagged selection is filled once, directly after its own allocation. |
| Promotion.AllocateAndFillInfos | mlir/lib/Dialect/Linalg/Transforms/Promotion.cpp:299-304 | Each selected operand's info is the one its allocation produced. With the default allocator every full view is a `memref.view`. |
| Promotion.CopyIns | mlir/lib/Dialect/Linalg/Transforms/Promotion.cpp:332-343 | The copy-in loop succeeds exactly when the callback accepts every copy-in of an operand marked for it. It fails only on a refused copy and emits only copies and barriers. |
| Promotion.CopyInsFenced | mlir/lib/Dialect/Linalg/Transforms/Promotion.cpp:332-343 | The copy-ins in order, one block per copied-in selection: with the workgroup callback, block `k` is barrier, `memref.copy` of the `k`-th pair, barrier. With any other callback it is that one copy. |
| Promotion.CopiedInSelections | mlir/lib/Dialect/Linalg/Transforms/Promotion.cpp:333-338 | The selections the copy-in loop copies: each is marked for copy-in and has a promotion info, and every such selection is among them. |
| Promotion.CopiedInSelectionsIncreasing | mlir/lib/Dialect/Linalg/Transforms/Promotion.cpp:333-338 | Filtering keeps the selection order, so the copied-in selections name distinct operands in increasing order. |
| Promotion.CopyInsCopies | mlir/lib/Dialect/Linalg/Transforms/Promotion.cpp:332-343 | The copies are, in selection order, exactly one per selection marked for copy-in, from the original subview into its partial view. Membership is also stated in both directions. |
| Promotion.PromoteBuffers | mlir/lib/Dialect/Linalg/Transforms/Promotion.cpp:288-345 | Fails with nothing to promote exactly when nothing is selected. On success every selection was allocated (and filled). With a non-refusing copy-in callback it succeeds whenever all selections can be allocated. A copy failure needs a refusing callback. The info keys are the selected operands, and the phases hold only their own kinds of action. |
| Rewrite.Writebacks | mlir/lib/Dialect/Linalg/Transforms/Promotion.cpp:364-382 | Every write-back pair is for a promoted output: its operand number is at least the input count. Each pair goes from that operand's partial view to its original value. The pairs are in strictly increasing operand order. |
| Rewrite.WritebacksCover | mlir/lib/Dialect/Linalg/Transforms/Promotion.cpp:375-378 | Every promoted output has a write-back pair. |
| Rewrite.CopyOuts | mlir/lib/Dialect/Linalg/Transforms/Promotion.cpp:387-392 | The copy-out loop succeeds exactly when every write-back copy is accepted, and fails only on a refused copy. Its copies are exactly the write-back pairs, partial view to original, in order. |
| Rewrite.CopyOutsFenced | mlir/lib/Dialect/Linalg/Transforms/Promotion.cpp:387-392 | The copy-outs in the same block form, one block per write-back pair: barriers around each workgroup copy, a single copy otherwise. |
| Rewrite.Deallocs | mlir/lib/Dialect/Linalg/Transforms/Promotion.cpp:394-396 | With the default heap deallocator there is one dealloc per selection, in order, each freeing the buffer under that selection's full view. Otherwise there are none. |
| Rewrite.OperandsCount | mlir/lib/Dialect/Linalg/Transforms/Promotion.cpp:355-357 | Selections with strictly increasing operand numbers name as many operands as there are selections. |
| Rewrite.PromoteOperands | mlir/lib/Dialect/Linalg/Transforms/Promotion.cpp:347-398 | Fails with nothing to promote exactly when nothing is selected. It never fails on the count check for well-formed selections. Copy failures need a refusing callback. On success: the operand count is unchanged; every operand that is not promoted is kept in place; the infos cover exactly the promoted operands; each phase holds only its own kind of action; and the dealloc count is as the deallocator dictates. |
| Rewrite.PromotedViews | mlir/lib/Dialect/Linalg/Transforms/Promotion.cpp:366-374 | A promoted operand's full view has the full-tile sizes. Its partial view is the origin window of the full view with the subview's sizes and fits in it in every sound run. The op reads the full view exactly when the operand's flag is set, and the partial view otherwise. |
| Rewrite.FullTilesAreZeroFilled | mlir/lib/Dialect/Linalg/Transforms/Promotion.cpp:306-329 | Before the op, the full view of every flagged promoted operand is filled with the zero of its element type. |
| Rewrite.FillsByOperand | mlir/lib/Dialect/Linalg/Transforms/Promotion.cpp:306-329 | The fills of the allocation loop, per operand number: each fills the full view of a flagged promoted operand with the zero of its element type. |
| Rewrite.FillsOnlyFullTiles | mlir/lib/Dialect/Linalg/Transforms/Promotion.cpp:306-329 | Every fill is of the full view of a flagged promoted operand, with its element type's zero. |
| Rewrite.SetupOfRewrite | mlir/lib/Dialect/Linalg/Transforms/Promotion.cpp:296-330 | For the rewritten program, selection by selection: an allocation at the selection's setup position, directly followed, when the operand's flag is set, by the zero fill of that operand's full view. |
| Rewrite.CopyInsByOperand | mlir/lib/Dialect/Linalg/Transforms/Promotion.cpp:332-343 | The copy-ins, per operand number: the k-th copy goes from the k-th copied-in operand, in increasing operand order, into its partial view, and there is one copy per such operand. Membership is also stated in both directions. |
| Rewrite.CopyInsOfRewrite | mlir/lib/Dialect/Linalg/Transforms/Promotion.cpp:332-343 | The same, for the rewritten program: exactly one copy-in per promoted operand marked for copy-in, in increasing operand order. |
| Rewrite.CopyOutsByOperand | mlir/lib/Dialect/Linalg/Transforms/Promotion.cpp:375-392 | The copy-outs, per operand number: exactly one per promoted output, from its partial view back into the original operand (both directions). |
| Rewrite.CopyOutsOfRewrite | mlir/lib/Dialect/Linalg/Transforms/Promotion.cpp:375-392 | The same, for the rewritten program. |
| Rewrite.CopyPhasesFenced | mlir/lib/Dialect/Linalg/Transforms/Promotion.cpp:332-392 | For the rewritten program, both copy phases are in block form: the copy-ins over the copied-in selections and the copy-outs over the write-back pairs, each copy between two barriers for the workgroup callback. |
| Rewrite.DeallocsFreeAllocations | mlir/lib/Dialect/Linalg/Transforms/Promotion.cpp:394-396 | With the default heap deallocator, the k-th dealloc frees the k-th allocated buffer and there is one dealloc per allocation. Otherwise nothing is freed. |
| Rewrite.TraceOrder | mlir/lib/Dialect/Linalg/Transforms/Promotion.cpp:383-396 | The op occurs exactly once. All allocations and fills come before the copy-ins, copy-ins come before the op, and deallocations come after the copy-outs. |
| Rewrite.RewriteSucceedsIff | mlir/lib/Dialect/Linalg/Transforms/Promotion.cpp:353-398 | With copy callbacks that never refuse, the rewrite succeeds exactly when something is selected and every selection can be allocated (and zero-filled when flagged). |
| Rewrite.SomePromotableFrom | mlir/lib/Dialect/Linalg/Transforms/Promotion.cpp:408-416 | The scan answers yes exactly when some operand from the start position on is a subview passing the filter. |
| Rewrite.PromoteSubviewsPrecondition | mlir/lib/Dialect/Linalg/Transforms/Promotion.cpp:400-420 | Holds exactly for a linalg op with pure buffer semantics that has an operand which is a subview passing the filter. |
| Rewrite.PreconditionIffSelection | mlir/lib/Dialect/Linalg/Transforms/Promotion.cpp:405-414 | The precondition holds exactly when the per-instance policy selects something to promote. |
| Rewrite.PromoteSubViews | mlir/lib/Dialect/Linalg/Transforms/Promotion.cpp:422-432 | Fails with nothing to promote exactly when the precondition does not hold. It never fails on the count check. On success the operand count is unchanged and every operand that is not promotable is kept in place. |
| Rewrite.EntryCopiesIn | mlir/lib/Dialect/Linalg/Transforms/Promotion.cpp:333-343 | At the entry point, every promotable operand is promoted and, unless it is an operand of a `linalg.generic` whose payload never uses it, copied from the original into its partial view. |
| Rewrite.EntryCopyInsAreNeeded | mlir/lib/Dialect/Linalg/Transforms/Promotion.cpp:333-343 | At the entry point, every copy-in is of a promotable operand that is not an unread operand of a `linalg.generic`, into that operand's partial view. |
| Rewrite.EntryFullTileFlag | mlir/lib/Dialect/Linalg/Transforms/Promotion.cpp:366-374 | At the entry point, for an operand no other operand shares, the op reads the full view exactly when the caller's padded full-tile bit is set, and the partial view otherwise. |

## Left out

- IR construction, insertion points and `createOrFold` folding are abstracted into
  the action trace. Folding of the element count is modelled as "static exactly when
  all sizes are constants". The `x * 0` fold of `arith.muli`, which can make a count
  static even with a dynamic factor, is not modelled.
- The value-bounds analysis is the `ub` parameter, and its soundness is a hypothesis
  (`BoundsSound`). How bounds are computed is not part of this model.
- The data layout is the `layout` parameter. The assertion that the width is not a
  scalable vector is not modelled.
- Integer width: `width * count` and the constant folding are unbounded integers.
  The source's 64-bit overflow on huge buffers is not modelled.
- Buffer contents, copy semantics and barrier semantics are out. Barriers appear
  only as trace entries, and fill values only as typed zeros.
- Memory-space attributes are a tag. The `func.func` lookup of the GPU allocators is
  the `inFunction` flag of a subview.
- Arbitrary user allocation and deallocation callbacks are not modelled. Only the
  default and the two public GPU callbacks (workgroup and private) are. A user
  allocator that returns a `memref.view` would pass the default deallocator's cast. A user copy callback is modelled as one that
  refuses a given set of pairs.
- Rewrite.PromoteOperands, Rewrite.PromoteSubViews: the default deallocator's
  `cast` to a `memref.view` is a precondition (the default heap deallocator is
  paired only with the default allocator) rather than a modelled crash. The
  precondition is coarser than the crash. It also excludes runs that pair a GPU
  allocator with the default heap deallocator but fail cleanly before the cast:
  an empty selection, a GPU allocator refusing a non-constant bound, or a refused
  copy-in or copy-out. The lemmas about the rewrite carry the same precondition.
- A complex element type with a part that is neither float nor integer makes the
  source's `cast` fail. Such types are not representable here: complex parts are
  scalar types.
- IR already emitted before a failure (allocations before a failing allocation,
  an op already rewired before a refused copy-out) is not modelled. A failure
  returns no program.
- The failure value: the source returns one uniform failure, while the model tags
  which step failed.
- The deallocation callback's own result is ignored by the source, and the model
  gives the bound deallocators no failure path.
- `LLVM_DEBUG` output is not modelled.
- Rewritten.Trace: the GPU allocators move the insertion point to the start of
  the enclosing function for every allocation. The program therefore holds their
  allocations at the top of the function, in reverse selection order and ahead of
  every fill. The trace keeps them in selection order, interleaved with the
  fills, and marks each with `atFunctionEntry`. Trace order is creation order,
  not program order, for those allocations.
- Rewrite.CopyOutsOfRewrite: states membership in both directions but not the
  order of the copy-outs. Their order is stated by Rewrite.CopyOuts,
  Rewrite.Writebacks and Rewrite.CopyPhasesFenced.
- Rewrite.EntryFullTileFlag: assumes that no other operand is the same subview.
  With shared subviews the flag is that of the last selected operand using the subview,
  which Policy.MakeInstanceOptions states.

=== FILE: allocation.dfy ===
/** Allocation, deallocation and copy callbacks of the promotion: the default
    byte-buffer allocator, the GPU address-space allocators, and the copy
    helpers, each selected by a tag rather than a function pointer. */
module Allocation {
  import opened IR

  /** The allocation callback bound for one promotion: the default one, or
      one of the two public GPU allocators. */
  datatype AllocFn = DefaultAlloc | WorkgroupAlloc | PrivateAlloc

  /** The deallocation callback bound for one promotion. */
  datatype DeallocFn = DefaultDealloc | WorkgroupDealloc | PrivateDealloc

  /** A copy callback. `ExternalCopy` stands for a caller-supplied callback;
      it reports failure exactly on the (source, destination) pairs in
      `refuses` and otherwise emits one opaque copy. */
  datatype CopyFn = DefaultCopy | WorkgroupCopy | PrivateCopy | ExternalCopy(refuses: set<(Value, Value)>)

  /** What the default allocator reads from the promotion options. */
  datatype AllocConfig = AllocConfig(useAlloca: bool, memorySpace: Option<int>, alignment: Option<nat>)

  /** What an allocation callback produces: the full local view, and the
      actions it emitted to make it. */
  datatype Allocated = Allocated(view: Value, actions: seq<Action>)

  function SpaceOf(cfg: AllocConfig): MemorySpace {
    match cfg.memorySpace
    case Some(tag) => SpaceTag(tag)
    case None => DefaultSpace
  }

  /** `acc * s`, folded when both factors are constants. */
  function Mul(acc: AllocCount, s: Size): AllocCount {
    if acc.StaticCount? && s.Const? then StaticCount(acc.n * s.n)
    else if acc.StaticCount? then DynamicCount([Const(acc.n), s])
    else DynamicCount(acc.factors + [s])
  }

  /** Element count of the promoted buffer: the sizes multiplied from the
      left, starting at the constant 1. */
  function AllocSize(sizes: seq<Size>): (c: AllocCount)
    ensures c.StaticCount? <==> AllConstant(sizes)
    ensures |sizes| == 0 ==> c == StaticCount(1)
  {
    if |sizes| == 0 then StaticCount(1)
    else Mul(AllocSize(sizes[..|sizes| - 1]), sizes[|sizes| - 1])
  }

  lemma EvalAllSnoc(sizes: seq<Size>, s: Size, env: Env)
    ensures EvalAll(sizes + [s], env) == EvalAll(sizes, env) + [Eval(s, env)]
  {
  }

  lemma ProductSnoc(xs: seq<int>, x: int)
    ensures Product(xs + [x]) == Product(xs) * x
  {
    assert (xs + [x])[..|xs|] == xs;
  }

  /** Whatever the folding decided, the count is the product of the sizes. */
  lemma {:induction false} AllocSizeIsProduct(sizes: seq<Size>, env: Env)
    ensures CountValue(AllocSize(sizes), env) == Product(EvalAll(sizes, env))
  {
    if |sizes| > 0 {
      var init := sizes[..|sizes| - 1];
      var last := sizes[|sizes| - 1];
      assert sizes == init + [last];
      AllocSizeIsProduct(init, env);
      EvalAllSnoc(init, last, env);
      ProductSnoc(EvalAll(init, env), Eval(last, env));
      var acc := AllocSize(init);
      if acc.DynamicCount? {
        EvalAllSnoc(acc.factors, last, env);
        ProductSnoc(EvalAll(acc.factors, env), Eval(last, env));
      } else if last.Dyn? {
        assert [Const(acc.n), last] == [Const(acc.n)] + [last];
        EvalAllSnoc([Const(acc.n)], last, env);
        ProductSnoc(EvalAll([Const(acc.n)], env), Eval(last, env));
        assert EvalAll([Const(acc.n)], env) == [acc.n];
        assert Product([acc.n]) == Product([]) * acc.n;
      }
    }
  }

  /** Size in bytes of an `i8` buffer allocation: its static extent, or its
      run-time byte-size operand. */
  function AllocatedBytes(a: Action, env: Env): int
    requires a.Alloc? && a.buffer.LocalBuffer?
  {
    var shape := a.buffer.ty.shape;
    if |shape| == 1 && shape[0].Static? then shape[0].n
    else if a.dynamicSize.Some? then a.dynamicSize.value.width * CountValue(a.dynamicSize.value.count, env)
    else 0
  }

  /** `allocBuffer`: a one-dimensional `i8` buffer of `width * count` bytes,
      statically shaped when the count is a constant. */
  function AllocBuffer(cfg: AllocConfig, owner: nat, width: nat, count: AllocCount): (r: Allocated)
    ensures |r.actions| == 1 && r.actions[0].Alloc? && r.actions[0].buffer == r.view
    ensures r.view.LocalBuffer? && r.view.owner == owner
    ensures r.view.ty.elem == I8 && r.view.ty.space == SpaceOf(cfg) && |r.view.ty.shape| == 1
    ensures r.view.ty.shape[0].Static? <==> count.StaticCount?
    ensures r.actions[0].onStack == cfg.useAlloca && r.actions[0].alignment == cfg.alignment
    ensures !r.actions[0].atFunctionEntry
    ensures forall env :: AllocatedBytes(r.actions[0], env) == width * CountValue(count, env)
  {
    match count
    case StaticCount(n) =>
      var buffer := LocalBuffer(owner, MemRefType([Static(width * n)], I8, SpaceOf(cfg)));
      Allocated(buffer, [Alloc(buffer, None, cfg.useAlloca, cfg.alignment, false)])
    case DynamicCount(_) =>
      var buffer := LocalBuffer(owner, MemRefType([Dynamic], I8, SpaceOf(cfg)));
      Allocated(buffer, [Alloc(buffer, Some(ByteSize(width, count)), cfg.useAlloca, cfg.alignment, false)])
  }

  function DynamicShape(rank: nat): (r: seq<Extent>)
    ensures |r| == rank && forall i :: 0 <= i < rank ==> r[i] == Dynamic
  {
    seq(rank, _ => Dynamic)
  }

  /** `defaultAllocBufferCallBack`: an `i8` buffer sized for the product of
      the bounding sizes, viewed at byte offset 0 as a memref of those sizes. */
  function DefaultAllocBuffer(cfg: AllocConfig, layout: ElemType -> nat, owner: nat, sv: SubView, bounds: seq<Size>): (r: Allocated)
    ensures |r.actions| == 1 && r.actions[0].Alloc?
    ensures var b := r.actions[0].buffer;
      && b.LocalBuffer? && b.owner == owner
      && b.ty.elem == I8 && b.ty.space == SpaceOf(cfg) && |b.ty.shape| == 1
      && (b.ty.shape[0].Static? <==> AllConstant(bounds))
    ensures r.actions[0].onStack == cfg.useAlloca && r.actions[0].alignment == cfg.alignment
    ensures r.view == LocalView(r.actions[0].buffer, MemRefType(DynamicShape(|bounds|), sv.elem, SpaceOf(cfg)), 0, bounds)
  {
    var buffer := AllocBuffer(cfg, owner, layout(sv.elem), AllocSize(bounds));
    var viewType := MemRefType(DynamicShape(|bounds|), sv.elem, SpaceOf(cfg));
    Allocated(LocalView(buffer.view, viewType, 0, bounds), buffer.actions)
  }

  /** The default buffer holds exactly one element of the layout's width for
      every point of the bounding box. */
  lemma DefaultAllocBytes(cfg: AllocConfig, layout: ElemType -> nat, owner: nat, sv: SubView, bounds: seq<Size>, env: Env)
    ensures var r := DefaultAllocBuffer(cfg, layout, owner, sv, bounds);
      AllocatedBytes(r.actions[0], env) == layout(sv.elem) * Product(EvalAll(bounds, env))
  {
    AllocSizeIsProduct(bounds, env);
  }

  /** `defaultDeallocBufferCallBack`: frees the buffer underneath the full
      view, unless it was allocated on the stack. */
  function DefaultDeallocBuffer(useAlloca: bool, fullLocalView: Value): (r: seq<Action>)
    requires !useAlloca ==> fullLocalView.LocalView?
    ensures |r| <= 1
    ensures |r| == 1 <==> !useAlloca
    ensures |r| == 1 ==> r[0] == Dealloc(fullLocalView.source)
  {
    if useAlloca then [] else [Dealloc(fullLocalView.source)]
  }

  /** The default pair of callbacks frees what it allocated exactly when the
      allocation was not on the stack. */
  lemma DefaultDeallocFreesHeapBuffer(cfg: AllocConfig, layout: ElemType -> nat, owner: nat, sv: SubView, bounds: seq<Size>)
    ensures var a := DefaultAllocBuffer(cfg, layout, owner, sv, bounds);
      && (!a.actions[0].onStack ==> DefaultDeallocBuffer(cfg.useAlloca, a.view) == [Dealloc(a.actions[0].buffer)])
      && (a.actions[0].onStack ==> DefaultDeallocBuffer(cfg.useAlloca, a.view) == [])
  {
  }

  function StaticShape(bounds: seq<Size>): (r: seq<Extent>)
    requires AllConstant(bounds)
    ensures |r| == |bounds| && forall i :: 0 <= i < |bounds| ==> r[i] == Static(bounds[i].n)
  {
    seq(|bounds|, i requires 0 <= i < |bounds| => Static(bounds[i].n))
  }

  lemma StaticBufferSizes(owner: nat, shape: seq<Extent>, elem: ElemType, space: MemorySpace, bounds: seq<Size>)
    requires AllConstant(bounds) && shape == StaticShape(bounds)
    ensures ViewSizes(LocalBuffer(owner, MemRefType(shape, elem, space))) == Some(bounds)
  {
    assert AllStatic(shape);
    assert StaticSizes(shape) == bounds;
  }

  /** `allocateSubviewGPUMemoryInAddressSpace`: a buffer typed with the
      element type and the constant bounds as its shape, placed at the entry
      of the enclosing function; heap for workgroup memory, stack for private
      memory. Fails outside a function, on a non-constant bound, and for any
      other address space. */
  function AllocateInAddressSpace(owner: nat, sv: SubView, bounds: seq<Size>, space: AddressSpace): (r: Option<Allocated>)
    ensures r.Some? <==> sv.inFunction && AllConstant(bounds) && space != Global
    ensures r.Some? ==>
      && |r.value.actions| == 1 && r.value.actions[0].Alloc?
      && r.value.actions[0].buffer == r.value.view
      && r.value.view.LocalBuffer? && r.value.view.owner == owner
      && r.value.view.ty.elem == sv.elem && r.value.view.ty.space == GpuSpace(space)
      && r.value.actions[0].onStack == (space == Private)
      && r.value.actions[0].atFunctionEntry
    ensures r.Some? ==> ViewSizes(r.value.view) == Some(bounds)
  {
    if !sv.inFunction then None
    else if !AllConstant(bounds) then None
    else
      var shape := StaticShape(bounds);
      var buffer := LocalBuffer(owner, MemRefType(shape, sv.elem, GpuSpace(space)));
      StaticBufferSizes(owner, shape, sv.elem, GpuSpace(space), bounds);
      match space
      case Workgroup => Some(Allocated(buffer, [Alloc(buffer, None, false, None, true)]))
      case Private => Some(Allocated(buffer, [Alloc(buffer, None, true, None, true)]))
      case Global => None
  }

  /** `allocateWorkgroupMemory`. */
  function AllocateWorkgroupMemory(owner: nat, sv: SubView, bounds: seq<Size>): (r: Option<Allocated>)
    ensures r.Some? <==> sv.inFunction && AllConstant(bounds)
    ensures r.Some? ==>
      && |r.value.actions| == 1 && r.value.actions[0].Alloc? && !r.value.actions[0].onStack
      && r.value.view.LocalBuffer? && r.value.view.ty.space == GpuSpace(Workgroup)
  {
    AllocateInAddressSpace(owner, sv, bounds, Workgroup)
  }

  /** `allocateGPUPrivateMemory`. */
  function AllocateGpuPrivateMemory(owner: nat, sv: SubView, bounds: seq<Size>): (r: Option<Allocated>)
    ensures r.Some? <==> sv.inFunction && AllConstant(bounds)
    ensures r.Some? ==>
      && |r.value.actions| == 1 && r.value.actions[0].Alloc? && r.value.actions[0].onStack
      && r.value.view.LocalBuffer? && r.value.view.ty.space == GpuSpace(Private)
  {
    AllocateInAddressSpace(owner, sv, bounds, Private)
  }

  predicate AllocationSucceeds(fn: AllocFn, sv: SubView, bounds: seq<Size>) {
    fn.DefaultAlloc? || (sv.inFunction && AllConstant(bounds))
  }

  /** The bound allocation callback: every backend allocates one fresh buffer
      owned by the operand and returns a full view whose sizes are the
      bounding sizes. */
  function Allocate(fn: AllocFn, cfg: AllocConfig, layout: ElemType -> nat, owner: nat, sv: SubView, bounds: seq<Size>): (r: Option<Allocated>)
    ensures r.Some? <==> AllocationSucceeds(fn, sv, bounds)
    ensures r.Some? ==>
      && |r.value.actions| == 1 && r.value.actions[0].Alloc?
      && r.value.actions[0].buffer.LocalBuffer?
      && r.value.actions[0].buffer.owner == owner
    ensures r.Some? ==> ViewSizes(r.value.view) == Some(bounds)
    ensures r.Some? && fn.DefaultAlloc? ==>
      r.value.view.LocalView? && r.value.view.source == r.value.actions[0].buffer
    ensures r.Some? && !fn.DefaultAlloc? ==> r.value.view == r.value.actions[0].buffer
  {
    match fn
    case DefaultAlloc => Some(DefaultAllocBuffer(cfg, layout, owner, sv, bounds))
    case WorkgroupAlloc => AllocateWorkgroupMemory(owner, sv, bounds)
    case PrivateAlloc => AllocateGpuPrivateMemory(owner, sv, bounds)
  }

  /** The bound deallocation callback. The GPU ones emit nothing: workgroup
      memory lives as long as the function, private memory as long as its
      scope. */
  function Deallocate(fn: DeallocFn, useAlloca: bool, fullLocalView: Value): (r: seq<Action>)
    requires fn.DefaultDealloc? && !useAlloca ==> fullLocalView.LocalView?
    ensures |r| == (if fn.DefaultDealloc? && !useAlloca then 1 else 0)
    ensures |r| == 1 ==> r[0] == Dealloc(fullLocalView.source)
  {
    match fn
    case DefaultDealloc => DefaultDeallocBuffer(useAlloca, fullLocalView)
    case WorkgroupDealloc => []
    case PrivateDealloc => []
  }

  /** `copyToWorkgroupMemory`: the copy is fenced by a barrier on each side. */
  function CopyToWorkgroupMemory(src: Value, dst: Value): (r: seq<Action>)
    ensures |r| == 3
    ensures Copies(r) == [(src, dst)]
    ensures forall i :: 0 <= i < |r| ==> r[i].Copy? || r[i].Barrier?
    ensures forall i :: 0 <= i < |r| && r[i].Copy? ==>
              0 < i < |r| - 1 && r[i - 1].Barrier? && r[i + 1].Barrier?
  {
    var r := [Barrier, Copy(MemRefCopy, src, dst), Barrier];
    assert r[2..] == [Barrier] && r[2..][1..] == [];
    assert CopyPair(Barrier).None? && Picked<(Value, Value)>([], CopyPair) == [];
    assert Copies(r[2..]) == [];
    assert r[1..][1..] == r[2..];
    assert Copies(r[1..]) == [(src, dst)] + Copies(r[2..]);
    r
  }

  /** The copy operation each callback emits. */
  function CopyKindOf(fn: CopyFn): CopyOpKind {
    match fn
    case DefaultCopy => LinalgCopy
    case WorkgroupCopy => MemRefCopy
    case PrivateCopy => MemRefCopy
    case ExternalCopy(_) => ExternalCopyOp
  }

  /** The `k`-th accepted copy in `actions` is the copy of `src` into `dst`
      as `fn` emits it: between two barriers, three actions per copy, for the
      workgroup callback, and the copy alone, one action per copy, otherwise. */
  predicate CopyBlockAt(fn: CopyFn, actions: seq<Action>, k: nat, src: Value, dst: Value) {
    if fn.WorkgroupCopy? then
      && 3 * k + 3 <= |actions|
      && actions[3 * k].Barrier?
      && actions[3 * k + 1] == Copy(MemRefCopy, src, dst)
      && actions[3 * k + 2].Barrier?
    else
      && k < |actions|
      && actions[k] == Copy(CopyKindOf(fn), src, dst)
  }

  /** `actions` are the copies of `pairs` as `fn` emits them, one block per
      pair, in order, and nothing else. */
  predicate Fenced(fn: CopyFn, actions: seq<Action>, pairs: seq<(Value, Value)>) {
    && |actions| == (if fn.WorkgroupCopy? then 3 * |pairs| else |pairs|)
    && forall k :: 0 <= k < |pairs| ==> CopyBlockAt(fn, actions, k, pairs[k].0, pairs[k].1)
  }

  /** One copy's block in front of a run of blocks is a run of blocks. */
  lemma FencedCons(fn: CopyFn, first: seq<Action>, rest: seq<Action>, p: (Value, Value), pairs: seq<(Value, Value)>)
    requires Fenced(fn, first, [p]) && Fenced(fn, rest, pairs)
    ensures Fenced(fn, first + rest, [p] + pairs)
  {
    var all := [p] + pairs;
    assert [p][0] == p;
    assert CopyBlockAt(fn, first, 0, p.0, p.1);
    assert forall i :: 0 <= i < |first| ==> (first + rest)[i] == first[i];
    assert forall i :: 0 <= i < |rest| ==> (first + rest)[|first| + i] == rest[i];
    forall k | 0 <= k < |all|
      ensures CopyBlockAt(fn, first + rest, k, all[k].0, all[k].1)
    {
      if k > 0 {
        assert all[k] == pairs[k - 1];
        assert CopyBlockAt(fn, rest, k - 1, pairs[k - 1].0, pairs[k - 1].1);
      }
    }
  }

  predicate CopyAccepted(fn: CopyFn, src: Value, dst: Value) {
    !(fn.ExternalCopy? && (src, dst) in fn.refuses)
  }

  /** The bound copy callback: `linalg.copy` by default, a fenced
      `memref.copy` into workgroup memory, a plain `memref.copy` into private
      memory, or a caller-supplied copy that may fail. */
  function CopyData(fn: CopyFn, src: Value, dst: Value): (r: Result<seq<Action>>)
    ensures r.Success? <==> CopyAccepted(fn, src, dst)
    ensures r.Failure? ==> r.error == CopyFailed
    ensures r.Success? ==> Copies(r.value) == [(src, dst)]
    ensures r.Success? ==> forall i :: 0 <= i < |r.value| ==> r.value[i].Copy? || r.value[i].Barrier?
    ensures r.Success? ==> (fn.WorkgroupCopy? <==> exists i :: 0 <= i < |r.value| && r.value[i].Barrier?)
    ensures r.Success? && fn.WorkgroupCopy? ==>
              |r.value| == 3 && r.value[0].Barrier? && r.value[1] == Copy(MemRefCopy, src, dst) && r.value[2].Barrier?
    ensures r.Success? && !fn.WorkgroupCopy? ==> |r.value| == 1
    ensures r.Success? ==> Fenced(fn, r.value, [(src, dst)])
  {
    match fn
    case DefaultCopy =>
      assert Copies([Copy(LinalgCopy, src, dst)][1..]) == [];
      Success([Copy(LinalgCopy, src, dst)])
    case WorkgroupCopy =>
      var r := CopyToWorkgroupMemory(src, dst);
      assert r[0].Barrier?;
      Success(r)
    case PrivateCopy =>
      assert Copies([Copy(MemRefCopy, src, dst)][1..]) == [];
      Success([Copy(MemRefCopy, src, dst)])
    case ExternalCopy(refuses) =>
      if (src, dst) in refuses then Failure(CopyFailed)
      else
        assert Copies([Copy(ExternalCopyOp, src, dst)][1..]) == [];
        Success([Copy(ExternalCopyOp, src, dst)])
  }
}

=== FILE: ir.dfy ===
/** The IR vocabulary the linalg subview-promotion rewrite works on: index
    sizes, subviews, the operands of a linalg op, the values the rewrite
    creates, and the actions it emits into the program. */
module IR {

  datatype Option<+T> = None | Some(value: T) {
    function GetOr(default: T): T {
      match this
      case Some(v) => v
      case None => default
    }
  }

  /** The source reports every failure as one "could not promote" outcome;
      the tag only records which step refused, so that contracts can say so. */
  datatype Error =
    | NothingToPromote
    | AllocationFailed
    | NoZeroForElement
    | CopyFailed
    | PromotedCountMismatch

  datatype Result<+T> = Success(value: T) | Failure(error: Error) {
    predicate IsFailure() {
      Failure?
    }

    function PropagateFailure<U>(): Result<U>
      requires Failure?
    {
      Failure(error)
    }

    function Extract(): T
      requires Success?
    {
      value
    }
  }

  /** An index-typed size: a folded constant, or a value known only at run
      time, named by a symbol. */
  datatype Size = Const(n: int) | Dyn(sym: nat)

  /** A run-time valuation of the dynamic size symbols. */
  type Env = nat -> int

  function Eval(s: Size, env: Env): int {
    match s
    case Const(n) => n
    case Dyn(x) => env(x)
  }

  function EvalAll(sizes: seq<Size>, env: Env): (r: seq<int>)
    ensures |r| == |sizes|
    ensures forall i :: 0 <= i < |sizes| ==> r[i] == Eval(sizes[i], env)
  {
    seq(|sizes|, i requires 0 <= i < |sizes| => Eval(sizes[i], env))
  }

  predicate AllConstant(sizes: seq<Size>) {
    forall i :: 0 <= i < |sizes| ==> sizes[i].Const?
  }

  /** Product of a list, multiplied from the left starting at 1. */
  function Product(xs: seq<int>): int {
    if |xs| == 0 then 1 else Product(xs[..|xs| - 1]) * xs[|xs| - 1]
  }

  /** One dimension of the source memref a subview slices: its size, and
      whether the subview drops it (rank reduction). */
  datatype Dim = Dim(size: Size, dropped: bool)

  datatype ScalarType = FloatType(fbits: nat) | IntegerType(ibits: nat)

  /** Element types, as far as the zero-fill dispatch distinguishes them. */
  datatype ElemType =
    | Scalar(s: ScalarType)
    | Complex(part: ScalarType)
    | IndexType
    | OtherType(name: string)

  const I8: ElemType := Scalar(IntegerType(8))

  /** A `memref.subview` op. `id` distinguishes subviews that happen to have
      the same shape; `inFunction` says whether a `func.func` encloses it. */
  datatype SubView = SubView(id: nat, dims: seq<Dim>, elem: ElemType, inFunction: bool)

  /** An operand of the op being promoted: the result of a subview, or any
      other value. */
  datatype Operand = SubViewResult(sv: SubView) | OtherValue(id: nat)

  /** A linalg op: its operands (inputs first), the number of inputs, whether
      it is a `linalg.generic`, which operands its payload reads, and whether
      it has pure buffer semantics. */
  datatype LinalgOp = LinalgOp(
    operands: seq<Operand>,
    numInputs: nat,
    isGeneric: bool,
    payloadReads: set<nat>,
    pureBuffer: bool)

  /** Any operation; only linalg ops can be promoted. */
  datatype Operation = Linalg(op: LinalgOp) | NonLinalg

  datatype AddressSpace = Global | Workgroup | Private

  datatype MemorySpace = DefaultSpace | SpaceTag(tag: int) | GpuSpace(space: AddressSpace)

  datatype Extent = Static(n: int) | Dynamic

  datatype MemRefType = MemRefType(shape: seq<Extent>, elem: ElemType, space: MemorySpace)

  /** Element count of an allocation: a folded constant, or the run-time
      product of its factors. */
  datatype AllocCount = StaticCount(n: int) | DynamicCount(factors: seq<Size>)

  function CountValue(c: AllocCount, env: Env): int {
    match c
    case StaticCount(n) => n
    case DynamicCount(factors) => Product(EvalAll(factors, env))
  }

  /** The byte-size operand of a dynamically shaped allocation: `width * count`. */
  datatype ByteSize = ByteSize(width: nat, count: AllocCount)

  /** Values: those of the input program, and those the rewrite creates.
      A local buffer is named by the operand number it was allocated for. */
  datatype Value =
    | Pre(operand: Operand)
    | LocalBuffer(owner: nat, ty: MemRefType)
    | LocalView(source: Value, ty: MemRefType, byteShift: int, sizes: seq<Size>)
    | LocalSubView(source: Value, offsets: seq<int>, sizes: seq<Size>, strides: seq<int>)

  predicate AllStatic(shape: seq<Extent>) {
    forall i :: 0 <= i < |shape| ==> shape[i].Static?
  }

  function StaticSizes(shape: seq<Extent>): (r: seq<Size>)
    requires AllStatic(shape)
    ensures |r| == |shape| && forall i :: 0 <= i < |shape| ==> r[i] == Const(shape[i].n)
  {
    seq(|shape|, i requires 0 <= i < |shape| => Const(shape[i].n))
  }

  /** The sizes of a view the rewrite created, when its size operands or its
      static type give them. */
  function ViewSizes(v: Value): Option<seq<Size>> {
    match v
    case LocalView(_, _, _, sizes) => Some(sizes)
    case LocalSubView(_, _, sizes, _) => Some(sizes)
    case LocalBuffer(_, ty) =>
      if AllStatic(ty.shape) then Some(StaticSizes(ty.shape)) else None
    case Pre(_) => None
  }

  /** A constant the fill value is built from. */
  datatype Constant =
    | ZeroOf(ty: ScalarType)
    | ComplexCreate(part: ScalarType, re: Constant, im: Constant)

  /** `c` is the zero of element type `e`: a typed zero for a scalar, and a
      complex value whose two parts are zeros of the part type. */
  predicate IsZeroOf(c: Constant, e: ElemType) {
    match c
    case ZeroOf(s) => e == Scalar(s)
    case ComplexCreate(p, re, im) =>
      e == Complex(p) && IsZeroOf(re, Scalar(p)) && IsZeroOf(im, Scalar(p))
  }

  datatype CopyOpKind = LinalgCopy | MemRefCopy | ExternalCopyOp

  /** What the rewrite emits, in program order. */
  datatype Action =
    | Alloc(buffer: Value, dynamicSize: Option<ByteSize>, onStack: bool,
            alignment: Option<nat>, atFunctionEntry: bool)
    | Fill(value: Constant, dst: Value)
    | Copy(kind: CopyOpKind, src: Value, dst: Value)
    | Barrier
    | Op(operands: seq<Value>)
    | Dealloc(buffer: Value)

  /** The items `pick` selects from `actions`, in program order. */
  function Picked<T>(actions: seq<Action>, pick: Action -> Option<T>): seq<T> {
    if |actions| == 0 then []
    else
      (if pick(actions[0]).Some? then [pick(actions[0]).value] else [])
      + Picked(actions[1..], pick)
  }

  lemma {:induction false} PickedAppend<T>(a: seq<Action>, b: seq<Action>, pick: Action -> Option<T>)
    ensures Picked(a + b, pick) == Picked(a, pick) + Picked(b, pick)
  {
    if |a| == 0 {
      assert a + b == b;
    } else {
      var ab := a + b;
      assert ab[0] == a[0];
      assert ab[1..] == a[1..] + b;
      PickedAppend(a[1..], b, pick);
    }
  }

  /** Blocks of actions laid end to end. */
  function Flatten(blocks: seq<seq<Action>>): seq<Action> {
    if |blocks| == 0 then [] else blocks[0] + Flatten(blocks[1..])
  }

  /** Where block `n` starts in `Flatten(blocks)`: the total length of the
      blocks before it. */
  function Offset(blocks: seq<seq<Action>>, n: nat): nat
    requires n <= |blocks|
  {
    if n == 0 then 0 else Offset(blocks, n - 1) + |blocks[n - 1]|
  }

  lemma {:induction false} OffsetTail(blocks: seq<seq<Action>>, n: nat)
    requires 0 < n <= |blocks|
    ensures Offset(blocks, n) == |blocks[0]| + Offset(blocks[1..], n - 1)
  {
    if n > 1 {
      OffsetTail(blocks, n - 1);
      assert blocks[n - 1] == blocks[1..][n - 2];
    }
  }

  lemma {:induction false} FlattenLength(blocks: seq<seq<Action>>)
    ensures |Flatten(blocks)| == Offset(blocks, |blocks|)
  {
    if |blocks| > 0 {
      FlattenLength(blocks[1..]);
      OffsetTail(blocks, |blocks|);
    }
  }

  /** Block `j` is the slice of the flattened sequence that starts at its
      offset. */
  lemma {:induction false} FlattenBlock(blocks: seq<seq<Action>>, j: nat)
    requires j < |blocks|
    ensures Offset(blocks, j) + |blocks[j]| <= |Flatten(blocks)|
    ensures Flatten(blocks)[Offset(blocks, j)..Offset(blocks, j) + |blocks[j]|] == blocks[j]
  {
    var first := blocks[0];
    var rest := Flatten(blocks[1..]);
    assert Flatten(blocks) == first + rest;
    if j == 0 {
      assert Flatten(blocks)[..|first|] == first;
    } else {
      FlattenBlock(blocks[1..], j - 1);
      OffsetTail(blocks, j);
      var x := Offset(blocks[1..], j - 1);
      assert blocks[1..][j - 1] == blocks[j];
      assert (first + rest)[|first| + x..|first| + x + |blocks[j]|] == rest[x..x + |blocks[j]|];
    }
  }

  function CopyPair(a: Action): Option<(Value, Value)> {
    if a.Copy? then Some((a.src, a.dst)) else None
  }

  /** The (source, destination) pairs of the copies in `actions`, in order. */
  function Copies(actions: seq<Action>): seq<(Value, Value)> {
    Picked(actions, CopyPair)
  }

  function AllocOf(a: Action): Option<Action> {
    if a.Alloc? then Some(a) else None
  }

  /** The allocations in `actions`, in order. */
  function Allocs(actions: seq<Action>): (r: seq<Action>)
    ensures forall k :: 0 <= k < |r| ==> r[k].Alloc? && r[k] in actions
  {
    AllocsAreAllocations(actions);
    Picked(actions, AllocOf)
  }

  lemma {:induction false} AllocsAreAllocations(actions: seq<Action>)
    ensures forall k :: 0 <= k < |Picked(actions, AllocOf)| ==>
              Picked(actions, AllocOf)[k].Alloc? && Picked(actions, AllocOf)[k] in actions
  {
    if |actions| > 0 {
      AllocsAreAllocations(actions[1..]);
      var head := if AllocOf(actions[0]).Some? then [actions[0]] else [];
      assert Picked(actions, AllocOf) == head + Picked(actions[1..], AllocOf);
      forall k | 0 <= k < |Picked(actions, AllocOf)|
        ensures Picked(actions, AllocOf)[k].Alloc? && Picked(actions, AllocOf)[k] in actions
      {
        if k >= |head| {
          assert Picked(actions, AllocOf)[k] == Picked(actions[1..], AllocOf)[k - |head|];
        }
      }
    }
  }
}

=== FILE: policy.dfy ===
/** The promotion options, and the per-op-instance policy built from them
    (`LinalgOpInstancePromotionOptions`): which operands are promoted, which
    of them are copied in, whether each presents the full tile, and which
    callbacks are bound. */
module Policy {
  import opened IR
  import opened Allocation

  /** The caller's options. A `None` callback means "use the default". */
  datatype PromotionOptions = PromotionOptions(
    operandsToPromote: Option<set<nat>>,
    useFullTileBuffers: Option<seq<bool>>,
    useFullTileBuffersDefault: bool,
    useOriginalSubviewSize: bool,
    alignment: Option<nat>,
    memorySpace: Option<int>,
    useAlloca: bool,
    allocationFn: Option<AllocFn>,
    deallocationFn: Option<DeallocFn>,
    copyInFn: Option<CopyFn>,
    copyOutFn: Option<CopyFn>)

  /** A promoted operand: its operand number and the subview defining it. */
  datatype Selection = Selection(operand: nat, sv: SubView)

  /** The policy for one op instance. `useFullTileBuffers` is keyed by the
      operand value, so operands that share one subview share one flag. */
  datatype InstanceOptions = InstanceOptions(
    subViews: seq<Selection>,
    copyIn: set<nat>,
    useFullTileBuffers: map<Operand, bool>,
    useOriginalSubviewSize: bool,
    allocationFn: AllocFn,
    deallocationFn: DeallocFn,
    copyInFn: CopyFn,
    copyOutFn: CopyFn,
    config: AllocConfig)

  /** Operand `i` passes the caller's operand filter (no filter passes all). */
  predicate Requested(options: PromotionOptions, i: nat) {
    options.operandsToPromote.None? || i in options.operandsToPromote.value
  }

  /** Operand `i` is defined by a subview and passes the operand filter. */
  predicate Promotable(op: LinalgOp, options: PromotionOptions, i: nat) {
    i < |op.operands| && op.operands[i].SubViewResult? && Requested(options, i)
  }

  /** Copy-in is skipped only for a `linalg.generic` whose payload does not
      read the operand. */
  predicate NeedsCopyIn(op: LinalgOp, i: nat) {
    !op.isGeneric || i in op.payloadReads
  }

  /** The caller's full-tile bit for operand `i`, padded with the default. */
  function FullTileFlag(options: PromotionOptions, i: nat): bool {
    match options.useFullTileBuffers
    case Some(bits) => if i < |bits| then bits[i] else options.useFullTileBuffersDefault
    case None => options.useFullTileBuffersDefault
  }

  /** The operand numbers of a list of selections. */
  function Operands(svs: seq<Selection>): set<nat> {
    set j | 0 <= j < |svs| :: svs[j].operand
  }

  predicate StrictlyIncreasing(svs: seq<Selection>) {
    forall j, k :: 0 <= j < k < |svs| ==> svs[j].operand < svs[k].operand
  }

  /** No later selection shares the subview of selection `j`. */
  predicate LastOfItsSubView(svs: seq<Selection>, j: int)
    requires 0 <= j < |svs|
  {
    forall k :: j < k < |svs| ==> svs[k].sv != svs[j].sv
  }

  /** The selections belong to `op`: in operand order, each names an operand
      that its subview defines. */
  predicate SelectionsOf(op: LinalgOp, svs: seq<Selection>) {
    && StrictlyIncreasing(svs)
    && forall j :: 0 <= j < |svs| ==>
         svs[j].operand < |op.operands| && op.operands[svs[j].operand] == SubViewResult(svs[j].sv)
  }

  datatype Collected = Collected(subViews: seq<Selection>, copyIn: set<nat>, useFullTileBuffers: map<Operand, bool>)

  /** The constructor's loop over the first `n` operands. */
  function Collect(op: LinalgOp, options: PromotionOptions, n: nat): Collected
    requires n <= |op.operands|
  {
    if n == 0 then Collected([], {}, map[])
    else
      var acc := Collect(op, options, n - 1);
      var i := n - 1;
      if !Requested(options, i) || !op.operands[i].SubViewResult? then acc
      else
        Collected(
          acc.subViews + [Selection(i, op.operands[i].sv)],
          if NeedsCopyIn(op, i) then acc.copyIn + {i} else acc.copyIn,
          acc.useFullTileBuffers[op.operands[i] := FullTileFlag(options, i)])
  }

  lemma OperandsSnoc(svs: seq<Selection>, s: Selection)
    ensures Operands(svs + [s]) == Operands(svs) + {s.operand}
  {
    var svs' := svs + [s];
    assert svs'[|svs|] == s;
    assert forall j :: 0 <= j < |svs| ==> svs'[j] == svs[j];
  }

  /** The selections come in operand order, each naming its own subview
      operand, and are exactly the promotable operands among the first `n`. */
  lemma {:induction false} CollectSelections(op: LinalgOp, options: PromotionOptions, n: nat)
    requires n <= |op.operands|
    ensures StrictlyIncreasing(Collect(op, options, n).subViews)
    ensures forall j :: 0 <= j < |Collect(op, options, n).subViews| ==>
              Collect(op, options, n).subViews[j].operand < n
              && op.operands[Collect(op, options, n).subViews[j].operand] == SubViewResult(Collect(op, options, n).subViews[j].sv)
    ensures forall i: nat :: i in Operands(Collect(op, options, n).subViews) <==> i < n && Promotable(op, options, i)
  {
    if n > 0 {
      CollectSelections(op, options, n - 1);
      var acc := Collect(op, options, n - 1);
      var i := n - 1;
      if Requested(options, i) && op.operands[i].SubViewResult? {
        var s := Selection(i, op.operands[i].sv);
        OperandsSnoc(acc.subViews, s);
        var svs := acc.subViews + [s];
        assert svs[|acc.subViews|] == s;
        assert forall j :: 0 <= j < |acc.subViews| ==> svs[j] == acc.subViews[j];
      }
    }
  }

  lemma {:induction false} CollectCopyIn(op: LinalgOp, options: PromotionOptions, n: nat)
    requires n <= |op.operands|
    ensures forall i: nat :: i in Collect(op, options, n).copyIn <==> i < n && Promotable(op, options, i) && NeedsCopyIn(op, i)
  {
    if n > 0 {
      CollectCopyIn(op, options, n - 1);
    }
  }

  /** The flag map has one key per promoted subview operand, and the value
      for a subview is the bit of the last selected operand that carries
      it. */
  lemma {:induction false} CollectFlags(op: LinalgOp, options: PromotionOptions, n: nat)
    requires n <= |op.operands|
    ensures forall v :: v in Collect(op, options, n).useFullTileBuffers ==>
              exists j :: 0 <= j < |Collect(op, options, n).subViews| && v == SubViewResult(Collect(op, options, n).subViews[j].sv)
    ensures forall j :: 0 <= j < |Collect(op, options, n).subViews| ==>
              SubViewResult(Collect(op, options, n).subViews[j].sv) in Collect(op, options, n).useFullTileBuffers
    ensures forall j :: 0 <= j < |Collect(op, options, n).subViews| && LastOfItsSubView(Collect(op, options, n).subViews, j) ==>
              Collect(op, options, n).useFullTileBuffers[SubViewResult(Collect(op, options, n).subViews[j].sv)]
                == FullTileFlag(options, Collect(op, options, n).subViews[j].operand)
  {
    if n > 0 {
      CollectFlags(op, options, n - 1);
      var acc := Collect(op, options, n - 1);
      var i := n - 1;
      if Requested(options, i) && op.operands[i].SubViewResult? {
        var s := Selection(i, op.operands[i].sv);
        var svs := acc.subViews + [s];
        var c := Collect(op, options, n);
        assert op.operands[i] == SubViewResult(s.sv);
        assert c.subViews == svs;
        assert c.useFullTileBuffers == acc.useFullTileBuffers[SubViewResult(s.sv) := FullTileFlag(options, i)];
        assert svs[|acc.subViews|] == s;
        forall v | v in c.useFullTileBuffers
          ensures exists j :: 0 <= j < |svs| && v == SubViewResult(svs[j].sv)
        {
          if v != SubViewResult(s.sv) {
            assert v in acc.useFullTileBuffers;
            var j :| 0 <= j < |acc.subViews| && v == SubViewResult(acc.subViews[j].sv);
            assert svs[j] == acc.subViews[j];
          }
        }
        forall j | 0 <= j < |svs|
          ensures SubViewResult(svs[j].sv) in c.useFullTileBuffers
        {
          if j < |acc.subViews| {
            assert svs[j] == acc.subViews[j];
          }
        }
        forall j | 0 <= j < |svs| && LastOfItsSubView(svs, j)
          ensures c.useFullTileBuffers[SubViewResult(svs[j].sv)] == FullTileFlag(options, svs[j].operand)
        {
          assert SubViewResult(svs[j].sv) in c.useFullTileBuffers;
          if j < |acc.subViews| {
            assert svs[j] == acc.subViews[j];
            assert svs[|acc.subViews|].sv != svs[j].sv;
            assert LastOfItsSubView(acc.subViews, j) by {
              forall k | j < k < |acc.subViews| ensures acc.subViews[k].sv != acc.subViews[j].sv {
                assert svs[k] == acc.subViews[k];
              }
            }
          }
        }
      } else {
        assert Collect(op, options, n) == acc;
      }
    }
  }

  /** `LinalgOpInstancePromotionOptions`: an operand is promoted iff it
      passes the filter and is defined by a subview; it is copied in unless a
      generic op's payload never reads it; its full-tile flag is the caller's
      bit for the last selected operand carrying that subview (the default beyond the
      supplied bits); unset callbacks are bound to the defaults. */
  function MakeInstanceOptions(op: LinalgOp, options: PromotionOptions): (io: InstanceOptions)
    requires op.pureBuffer
    ensures SelectionsOf(op, io.subViews)
    ensures forall i: nat :: i in Operands(io.subViews) <==> Promotable(op, options, i)
    ensures forall i: nat :: i in io.copyIn <==> Promotable(op, options, i) && NeedsCopyIn(op, i)
    ensures forall v :: v in io.useFullTileBuffers ==>
              exists j :: 0 <= j < |io.subViews| && v == SubViewResult(io.subViews[j].sv)
    ensures forall j :: 0 <= j < |io.subViews| ==> SubViewResult(io.subViews[j].sv) in io.useFullTileBuffers
    ensures forall j :: 0 <= j < |io.subViews| && LastOfItsSubView(io.subViews, j) ==>
              io.useFullTileBuffers[SubViewResult(io.subViews[j].sv)] == FullTileFlag(options, io.subViews[j].operand)
    ensures io.useOriginalSubviewSize == options.useOriginalSubviewSize
    ensures io.allocationFn == (if options.allocationFn.Some? then options.allocationFn.value else DefaultAlloc)
    ensures io.deallocationFn == (if options.deallocationFn.Some? then options.deallocationFn.value else DefaultDealloc)
    ensures io.copyInFn == (if options.copyInFn.Some? then options.copyInFn.value else DefaultCopy)
    ensures io.copyOutFn == (if options.copyOutFn.Some? then options.copyOutFn.value else DefaultCopy)
    ensures io.config == AllocConfig(options.useAlloca, options.memorySpace, options.alignment)
  {
    var c := Collect(op, options, |op.operands|);
    CollectSelections(op, options, |op.operands|);
    CollectCopyIn(op, options, |op.operands|);
    CollectFlags(op, options, |op.operands|);
    InstanceOptions(
      c.subViews, c.copyIn, c.useFullTileBuffers, options.useOriginalSubviewSize,
      options.allocationFn.GetOr(DefaultAlloc),
      options.deallocationFn.GetOr(DefaultDealloc),
      options.copyInFn.GetOr(DefaultCopy),
      options.copyOutFn.GetOr(DefaultCopy),
      AllocConfig(options.useAlloca, options.memorySpace, options.alignment))
  }

  /** When no two promoted operands share a subview, each one's flag is the
      caller's bit for it. */
  lemma DistinctSubViewsKeepTheirFlags(op: LinalgOp, options: PromotionOptions, i: nat)
    requires op.pureBuffer
    requires Promotable(op, options, i)
    requires forall k :: 0 <= k < |op.operands| && k != i ==> op.operands[k] != op.operands[i]
    ensures var io := MakeInstanceOptions(op, options);
      io.useFullTileBuffers[op.operands[i]] == FullTileFlag(options, i)
  {
    var io := MakeInstanceOptions(op, options);
    assert i in Operands(io.subViews);
    var j :| 0 <= j < |io.subViews| && io.subViews[j].operand == i;
    assert LastOfItsSubView(io.subViews, j);
  }
}

=== FILE: promotion.dfy ===
/** `promoteSubviewAsNewBuffer` and the first `promoteSubViews` overload:
    one local buffer per promoted operand, zero-filled when the operand will
    present the full tile, then the original data copied into the partial
    view. */
module Promotion {
  import opened IR
  import opened Tiling
  import opened Allocation
  import opened Policy

  /** The two views of a promoted buffer: the full tile, and the window of
      it that matches the subview. */
  datatype PromotionInfo = PromotionInfo(fullLocalView: Value, partialLocalView: Value)

  datatype NewBuffer = NewBuffer(info: PromotionInfo, actions: seq<Action>)

  function Zeros(k: nat): (r: seq<int>)
    ensures |r| == k && forall i :: 0 <= i < k ==> r[i] == 0
  {
    seq(k, _ => 0)
  }

  function Ones(k: nat): (r: seq<int>)
    ensures |r| == k && forall i :: 0 <= i < k ==> r[i] == 1
  {
    seq(k, _ => 1)
  }

  /** `v` is the window of `full` at the origin with unit strides and the
      given sizes. */
  predicate IsWindowAtOrigin(v: Value, full: Value, sizes: seq<Size>) {
    && v.LocalSubView? && v.source == full && v.sizes == sizes
    && |v.offsets| == |sizes| && |v.strides| == |sizes|
    && (forall i :: 0 <= i < |sizes| ==> v.offsets[i] == 0 && v.strides[i] == 1)
  }

  /** Sizes `inner` fit inside sizes `outer` dimension by dimension, in every
      run on which the bound analysis is sound. */
  ghost predicate FitsWithin(inner: seq<Size>, outer: seq<Size>, ub: UpperBounds) {
    && |inner| == |outer|
    && forall env, j :: BoundsSound(ub, env) && 0 <= j < |inner| ==> Eval(inner[j], env) <= Eval(outer[j], env)
  }

  /** `promoteSubviewAsNewBuffer`: allocates a buffer of the full-tile sizes
      through the bound allocation callback and cuts the partial view out of
      it. The partial view has the subview's own shape and, whenever the
      bound analysis is sound, fits inside the full view in every dimension. */
  function PromoteSubviewAsNewBuffer(owner: nat, sv: SubView, useOriginalSubviewSize: bool, ub: UpperBounds,
                                     allocationFn: AllocFn, cfg: AllocConfig, layout: ElemType -> nat): (r: Result<NewBuffer>)
    ensures r.Success? <==> AllocationSucceeds(allocationFn, sv, TileSizes(sv.dims, useOriginalSubviewSize, ub).full)
    ensures r.Failure? ==> r.error == AllocationFailed
    ensures r.Success? ==>
      && |r.value.actions| == 1 && r.value.actions[0].Alloc?
      && r.value.actions[0].buffer.LocalBuffer? && r.value.actions[0].buffer.owner == owner
    ensures r.Success? ==>
      ViewSizes(r.value.info.fullLocalView) == Some(TileSizes(sv.dims, useOriginalSubviewSize, ub).full)
    ensures r.Success? ==> IsWindowAtOrigin(r.value.info.partialLocalView, r.value.info.fullLocalView, KeptSizes(sv.dims))
    ensures r.Success? ==> FitsWithin(KeptSizes(sv.dims), ViewSizes(r.value.info.fullLocalView).value, ub)
    ensures r.Success? && allocationFn.DefaultAlloc? ==>
      r.value.info.fullLocalView.LocalView? && r.value.info.fullLocalView.source == r.value.actions[0].buffer
  {
    var t := TileSizes(sv.dims, useOriginalSubviewSize, ub);
    match Allocate(allocationFn, cfg, layout, owner, sv, t.full)
    case None => Failure(AllocationFailed)
    case Some(a) =>
      var k := |t.full|;
      Success(NewBuffer(PromotionInfo(a.view, LocalSubView(a.view, Zeros(k), t.partial, Ones(k))), a.actions))
  }

  /** The fill value for an element type: a typed zero for floats and
      integers, a complex number built from two zero parts for complex types,
      and none for any other element type. */
  function ZeroFill(e: ElemType): (r: Option<Constant>)
    ensures r.Some? <==> e.Scalar? || e.Complex?
    ensures r.Some? ==> IsZeroOf(r.value, e)
  {
    match e
    case Scalar(s) => Some(ZeroOf(s))
    case Complex(p) => Some(ComplexCreate(p, ZeroOf(p), ZeroOf(p)))
    case IndexType => None
    case OtherType(_) => None
  }

  /** The fill value is the only zero of its type, and a type without a
      fill value has no zero at all. */
  lemma ZeroFillIsTheZero(e: ElemType)
    ensures forall c :: IsZeroOf(c, e) <==> ZeroFill(e) == Some(c)
  {
  }

  /** The flag map is read with `operator[]`: a missing key reads as false. */
  function FullTileFlagOf(io: InstanceOptions, v: Operand): bool {
    if v in io.useFullTileBuffers then io.useFullTileBuffers[v] else false
  }

  /** The allocation callback applied to one selection. */
  function NewBufferFor(io: InstanceOptions, s: Selection, layout: ElemType -> nat, ub: UpperBounds): Result<NewBuffer> {
    PromoteSubviewAsNewBuffer(s.operand, s.sv, io.useOriginalSubviewSize, ub, io.allocationFn, io.config, layout)
  }

  predicate Filled(io: InstanceOptions, s: Selection) {
    FullTileFlagOf(io, SubViewResult(s.sv))
  }

  /** One selection gets through the allocation loop: its buffer is
      allocated, and it has a zero when it must be filled. */
  predicate SelectionPromotes(io: InstanceOptions, s: Selection, ub: UpperBounds) {
    && AllocationSucceeds(io.allocationFn, s.sv, TileSizes(s.sv.dims, io.useOriginalSubviewSize, ub).full)
    && (Filled(io, s) ==> ZeroFill(s.sv.elem).Some?)
  }

  /** The actions of one allocation-loop iteration: the allocation, then a
      fill of the full view with the element type's zero when `fill` holds. */
  predicate AllocThenFill(actions: seq<Action>, fill: bool, full: Value, elem: ElemType) {
    && |actions| == (if fill then 2 else 1)
    && actions[0].Alloc?
    && (fill ==> actions[1].Fill? && actions[1].dst == full && IsZeroOf(actions[1].value, elem))
  }

  /** One iteration of the allocation loop: allocate, then fill the full
      view with zero when the operand presents the full tile. */
  function AllocateAndFillOne(io: InstanceOptions, s: Selection, layout: ElemType -> nat, ub: UpperBounds): (r: Result<NewBuffer>)
    ensures r.Success? <==> SelectionPromotes(io, s, ub)
    ensures r.Failure? ==> r.error == AllocationFailed || r.error == NoZeroForElement
    ensures r.Success? ==> AllocThenFill(r.value.actions, Filled(io, s), r.value.info.fullLocalView, s.sv.elem)
    ensures r.Success? ==>
      && NewBufferFor(io, s, layout, ub).Success?
      && r.value.info == NewBufferFor(io, s, layout, ub).value.info
      && r.value.actions[0] == NewBufferFor(io, s, layout, ub).value.actions[0]
  {
    var nb :- NewBufferFor(io, s, layout, ub);
    if !Filled(io, s) then Success(nb)
    else
      match ZeroFill(s.sv.elem)
      case None => Failure(NoZeroForElement)
      case Some(zero) => Success(NewBuffer(nb.info, nb.actions + [Fill(zero, nb.info.fullLocalView)]))
  }

  /** The allocation loop's output: the promotion info per operand number,
      and the allocations and fills emitted. */
  datatype Buffers = Buffers(infos: map<nat, PromotionInfo>, setup: seq<Action>)

  predicate OnlyAllocsAndFills(actions: seq<Action>) {
    forall k :: 0 <= k < |actions| ==> actions[k].Alloc? || actions[k].Fill?
  }

  predicate OnlyCopiesAndBarriers(actions: seq<Action>) {
    forall k :: 0 <= k < |actions| ==> actions[k].Copy? || actions[k].Barrier?
  }

  lemma OperandsCons(svs: seq<Selection>)
    requires |svs| > 0
    ensures Operands(svs) == {svs[0].operand} + Operands(svs[1..])
  {
    assert forall j :: 1 <= j < |svs| ==> svs[j] == svs[1..][j - 1];
  }

  lemma AllocsOfOne(one: seq<Action>, fill: bool, full: Value, elem: ElemType)
    requires AllocThenFill(one, fill, full, elem)
    ensures Allocs(one) == [one[0]]
  {
    if fill {
      assert one[1..] == [one[1]] && one[1..][1..] == [];
      assert Allocs(one[1..]) == Picked<Action>([], AllocOf);
    } else {
      assert one[1..] == [];
      assert Allocs(one[1..]) == Picked<Action>([], AllocOf);
    }
  }

  /** The allocation loop over the iterations' results, in selection order:
      it stops at the first failed iteration and otherwise records each info
      under its operand number (a later record replaces an earlier one, as
      `operator[]` assignment does) and emits the iterations' actions in
      order. */
  function Gather(svs: seq<Selection>, steps: seq<Result<NewBuffer>>): (r: Result<Buffers>)
    requires |steps| == |svs|
    ensures r.Success? <==> forall j :: 0 <= j < |steps| ==> steps[j].Success?
    ensures r.Failure? ==> exists j :: 0 <= j < |steps| && steps[j].Failure? && r.error == steps[j].error
    decreases |svs|
  {
    if |svs| == 0 then Success(Buffers(map[], []))
    else
      var one :- steps[0];
      var rest := Gather(svs[1..], steps[1..]);
      if rest.Failure? then
        var j :| 0 <= j < |steps[1..]| && steps[1..][j].Failure? && rest.error == steps[1..][j].error;
        assert steps[j + 1] == steps[1..][j];
        Failure(rest.error)
      else
        assert forall j :: 1 <= j < |steps| ==> steps[j] == steps[1..][j - 1];
        Success(Buffers(map[svs[0].operand := one.info] + rest.value.infos, one.actions + rest.value.setup))
  }

  /** The loop records one promotion info per selected operand, and every
      recorded info is one an iteration produced. */
  lemma {:induction false} GatherKeys(svs: seq<Selection>, steps: seq<Result<NewBuffer>>)
    requires |steps| == |svs| && Gather(svs, steps).Success?
    ensures Gather(svs, steps).value.infos.Keys == Operands(svs)
    ensures forall k :: k in Gather(svs, steps).value.infos ==>
              exists j :: 0 <= j < |steps| && Gather(svs, steps).value.infos[k] == steps[j].value.info
    decreases |svs|
  {
    if |svs| > 0 {
      var rest := Gather(svs[1..], steps[1..]).value;
      var infos := Gather(svs, steps).value.infos;
      GatherKeys(svs[1..], steps[1..]);
      assert infos == map[svs[0].operand := steps[0].value.info] + rest.infos;
      OperandsCons(svs);
      forall k | k in infos
        ensures exists j :: 0 <= j < |steps| && infos[k] == steps[j].value.info
      {
        if k in rest.infos {
          var j :| 0 <= j < |steps[1..]| && rest.infos[k] == steps[1..][j].value.info;
          assert steps[1..][j] == steps[j + 1];
        } else {
          assert infos[k] == steps[0].value.info;
        }
      }
    }
  }

  /** The loop emits the iterations' actions and nothing else: every action
      it emits is one an iteration emitted, and vice versa. */
  lemma {:induction false} GatherActions(svs: seq<Selection>, steps: seq<Result<NewBuffer>>)
    requires |steps| == |svs| && Gather(svs, steps).Success?
    ensures forall a :: a in Gather(svs, steps).value.setup ==>
              exists j :: 0 <= j < |steps| && a in steps[j].value.actions
    ensures forall j, a :: 0 <= j < |steps| && a in steps[j].value.actions ==> a in Gather(svs, steps).value.setup
    decreases |svs|
  {
    if |svs| > 0 {
      var rest := Gather(svs[1..], steps[1..]).value;
      var setup := Gather(svs, steps).value.setup;
      GatherActions(svs[1..], steps[1..]);
      assert setup == steps[0].value.actions + rest.setup;
      forall a | a in setup
        ensures exists j :: 0 <= j < |steps| && a in steps[j].value.actions
      {
        if a !in steps[0].value.actions {
          assert a in rest.setup;
          var j :| 0 <= j < |steps[1..]| && a in steps[1..][j].value.actions;
          assert steps[1..][j] == steps[j + 1];
        }
      }
      forall j, a | 0 <= j < |steps| && a in steps[j].value.actions
        ensures a in setup
      {
        if j > 0 {
          assert steps[j] == steps[1..][j - 1];
        }
      }
    }
  }

  /** When each iteration allocates exactly once, first, the loop's
      allocations are the iterations' allocations, one per selection, in
      selection order. */
  lemma {:induction false} GatherAllocs(svs: seq<Selection>, steps: seq<Result<NewBuffer>>)
    requires |steps| == |svs| && Gather(svs, steps).Success?
    requires forall j :: 0 <= j < |steps| ==>
               |steps[j].value.actions| > 0 && Allocs(steps[j].value.actions) == [steps[j].value.actions[0]]
    ensures |Allocs(Gather(svs, steps).value.setup)| == |svs|
    ensures forall j :: 0 <= j < |svs| ==> Allocs(Gather(svs, steps).value.setup)[j] == steps[j].value.actions[0]
    decreases |svs|
  {
    if |svs| > 0 {
      var rest := Gather(svs[1..], steps[1..]).value;
      var setup := Gather(svs, steps).value.setup;
      assert forall j :: 1 <= j < |steps| ==> steps[j] == steps[1..][j - 1];
      GatherAllocs(svs[1..], steps[1..]);
      assert setup == steps[0].value.actions + rest.setup;
      PickedAppend(steps[0].value.actions, rest.setup, AllocOf);
    }
  }

  /** With distinct operand numbers, each selection's entry is the info its
      own iteration produced. */
  lemma {:induction false} GatherInfos(svs: seq<Selection>, steps: seq<Result<NewBuffer>>)
    requires |steps| == |svs| && Gather(svs, steps).Success?
    requires StrictlyIncreasing(svs)
    ensures forall j :: 0 <= j < |svs| ==>
              && svs[j].operand in Gather(svs, steps).value.infos
              && Gather(svs, steps).value.infos[svs[j].operand] == steps[j].value.info
    decreases |svs|
  {
    if |svs| > 0 {
      var rest := Gather(svs[1..], steps[1..]).value;
      var infos := Gather(svs, steps).value.infos;
      StrictlyIncreasingTail(svs);
      GatherInfos(svs[1..], steps[1..]);
      GatherKeys(svs[1..], steps[1..]);
      assert infos == map[svs[0].operand := steps[0].value.info] + rest.infos;
      assert svs[0].operand !in Operands(svs[1..]);
      forall j | 0 <= j < |svs|
        ensures svs[j].operand in infos && infos[svs[j].operand] == steps[j].value.info
      {
        if j > 0 {
          assert svs[j] == svs[1..][j - 1] && steps[j] == steps[1..][j - 1];
        }
      }
    }
  }

  /** One step of the allocation loop: the first step's actions, then the
      rest of the loop's. */
  lemma GatherStep(svs: seq<Selection>, steps: seq<Result<NewBuffer>>)
    requires |steps| == |svs| > 0 && Gather(svs, steps).Success?
    ensures steps[0].Success? && Gather(svs[1..], steps[1..]).Success?
    ensures Gather(svs, steps).value.setup == steps[0].value.actions + Gather(svs[1..], steps[1..]).value.setup
  {
  }

  /** The actions of each step, in order. */
  function StepActions(steps: seq<Result<NewBuffer>>): (r: seq<seq<Action>>)
    requires forall j :: 0 <= j < |steps| ==> steps[j].Success?
    ensures |r| == |steps| && forall j :: 0 <= j < |steps| ==> r[j] == steps[j].value.actions
  {
    seq(|steps|, j requires 0 <= j < |steps| && steps[j].Success? => steps[j].value.actions)
  }

  /** The loop's actions are the steps' actions laid end to end. */
  lemma {:induction false} GatherFlat(svs: seq<Selection>, steps: seq<Result<NewBuffer>>)
    requires |steps| == |svs| && Gather(svs, steps).Success?
    ensures Gather(svs, steps).value.setup == Flatten(StepActions(steps))
    decreases |svs|
  {
    if |svs| > 0 {
      GatherStep(svs, steps);
      GatherFlat(svs[1..], steps[1..]);
      assert StepActions(steps)[1..] == StepActions(steps[1..]);
    }
  }

  lemma StrictlyIncreasingTail(svs: seq<Selection>)
    requires |svs| > 0 && StrictlyIncreasing(svs)
    ensures StrictlyIncreasing(svs[1..])
    ensures forall j :: 0 <= j < |svs[1..]| ==> svs[0].operand < svs[1..][j].operand
  {
    forall j, k | 0 <= j < k < |svs| - 1 ensures svs[1..][j].operand < svs[1..][k].operand {
      assert svs[1..][j] == svs[j + 1] && svs[1..][k] == svs[k + 1];
    }
    forall j | 0 <= j < |svs[1..]| ensures svs[0].operand < svs[1..][j].operand {
      assert svs[1..][j] == svs[j + 1];
    }
  }

  function Iterations(io: InstanceOptions, svs: seq<Selection>, layout: ElemType -> nat, ub: UpperBounds): (steps: seq<Result<NewBuffer>>)
    ensures |steps| == |svs| && forall j :: 0 <= j < |svs| ==> steps[j] == AllocateAndFillOne(io, svs[j], layout, ub)
  {
    seq(|svs|, j requires 0 <= j < |svs| => AllocateAndFillOne(io, svs[j], layout, ub))
  }

  /** The first loop of `promoteSubViews`: it succeeds exactly when every
      selection can be allocated and, if it presents the full tile, filled;
      otherwise it fails with the first refusing iteration's reason. */
  function AllocateAndFill(io: InstanceOptions, svs: seq<Selection>, layout: ElemType -> nat, ub: UpperBounds): (r: Result<Buffers>)
    ensures r.Success? <==> forall j :: 0 <= j < |svs| ==> SelectionPromotes(io, svs[j], ub)
    ensures r.Failure? ==> r.error == AllocationFailed || r.error == NoZeroForElement
  {
    Gather(svs, Iterations(io, svs, layout, ub))
  }

  lemma AllocThenFillOnly(actions: seq<Action>, fill: bool, full: Value, elem: ElemType)
    requires AllocThenFill(actions, fill, full, elem)
    ensures forall a :: a in actions ==> a.Alloc? || (fill && a == Fill(a.value, full) && IsZeroOf(a.value, elem))
  {
  }

  /** The allocation loop records one promotion info per selection, emits
      only allocations and fills, and allocates once per selection, in
      selection order, each time the callback's own allocation. */
  lemma AllocateAndFillSetup(io: InstanceOptions, svs: seq<Selection>, layout: ElemType -> nat, ub: UpperBounds)
    requires AllocateAndFill(io, svs, layout, ub).Success?
    ensures AllocateAndFill(io, svs, layout, ub).value.infos.Keys == Operands(svs)
    ensures OnlyAllocsAndFills(AllocateAndFill(io, svs, layout, ub).value.setup)
    ensures |Allocs(AllocateAndFill(io, svs, layout, ub).value.setup)| == |svs|
    ensures forall j :: 0 <= j < |svs| ==>
              && NewBufferFor(io, svs[j], layout, ub).Success?
              && Allocs(AllocateAndFill(io, svs, layout, ub).value.setup)[j] == NewBufferFor(io, svs[j], layout, ub).value.actions[0]
  {
    var steps := Iterations(io, svs, layout, ub);
    var b := AllocateAndFill(io, svs, layout, ub).value;
    GatherKeys(svs, steps);
    GatherActions(svs, steps);
    forall j | 0 <= j < |steps|
      ensures |steps[j].value.actions| > 0 && Allocs(steps[j].value.actions) == [steps[j].value.actions[0]]
    {
      var one := steps[j].value;
      AllocsOfOne(one.actions, Filled(io, svs[j]), one.info.fullLocalView, svs[j].sv.elem);
    }
    GatherAllocs(svs, steps);
    forall k | 0 <= k < |b.setup| ensures b.setup[k].Alloc? || b.setup[k].Fill? {
      assert b.setup[k] in b.setup;
      var j :| 0 <= j < |steps| && b.setup[k] in steps[j].value.actions;
      var one := steps[j].value;
      AllocThenFillOnly(one.actions, Filled(io, svs[j]), one.info.fullLocalView, svs[j].sv.elem);
    }
  }

  /** The loop zero-fills the full view of every selection that presents
      the full tile, and fills nothing else. */
  lemma AllocateAndFillFills(io: InstanceOptions, svs: seq<Selection>, layout: ElemType -> nat, ub: UpperBounds)
    requires AllocateAndFill(io, svs, layout, ub).Success?
    ensures forall j :: 0 <= j < |svs| && Filled(io, svs[j]) ==>
              && NewBufferFor(io, svs[j], layout, ub).Success?
              && exists c :: IsZeroOf(c, svs[j].sv.elem)
                   && Fill(c, NewBufferFor(io, svs[j], layout, ub).value.info.fullLocalView) in AllocateAndFill(io, svs, layout, ub).value.setup
    ensures forall a :: a in AllocateAndFill(io, svs, layout, ub).value.setup && a.Fill? ==>
              exists j :: 0 <= j < |svs| && Filled(io, svs[j])
                && NewBufferFor(io, svs[j], layout, ub).Success?
                && a.dst == NewBufferFor(io, svs[j], layout, ub).value.info.fullLocalView
                && IsZeroOf(a.value, svs[j].sv.elem)
  {
    var steps := Iterations(io, svs, layout, ub);
    var b := AllocateAndFill(io, svs, layout, ub).value;
    GatherActions(svs, steps);
    forall j | 0 <= j < |svs| && Filled(io, svs[j])
      ensures NewBufferFor(io, svs[j], layout, ub).Success?
      ensures exists c :: IsZeroOf(c, svs[j].sv.elem)
                && Fill(c, NewBufferFor(io, svs[j], layout, ub).value.info.fullLocalView) in b.setup
    {
      var one := steps[j].value;
      assert one.actions[1] in one.actions;
      var c := one.actions[1].value;
      assert Fill(c, one.info.fullLocalView) == one.actions[1];
    }
    forall a | a in b.setup && a.Fill?
      ensures exists j :: 0 <= j < |svs| && Filled(io, svs[j])
                && NewBufferFor(io, svs[j], layout, ub).Success?
                && a.dst == NewBufferFor(io, svs[j], layout, ub).value.info.fullLocalView
                && IsZeroOf(a.value, svs[j].sv.elem)
    {
      var j :| 0 <= j < |steps| && a in steps[j].value.actions;
      var one := steps[j].value;
      AllocThenFillOnly(one.actions, Filled(io, svs[j]), one.info.fullLocalView, svs[j].sv.elem);
    }
  }

  /** Where selection `n`'s actions start in the setup: one action for each
      earlier selection, and one more for each earlier one that is filled. */
  function SetupStart(io: InstanceOptions, svs: seq<Selection>, n: nat): (p: nat)
    requires n <= |svs|
    ensures n <= p <= 2 * n
  {
    if n == 0 then 0 else SetupStart(io, svs, n - 1) + (if Filled(io, svs[n - 1]) then 2 else 1)
  }

  /** When each block has two actions for a filled selection and one
      otherwise, the block offsets are the setup offsets. */
  lemma {:induction false} StartsAgree(io: InstanceOptions, svs: seq<Selection>, blocks: seq<seq<Action>>, n: nat)
    requires n <= |svs| == |blocks|
    requires forall j :: 0 <= j < |blocks| ==> |blocks[j]| == (if Filled(io, svs[j]) then 2 else 1)
    ensures Offset(blocks, n) == SetupStart(io, svs, n)
  {
    if n > 0 {
      StartsAgree(io, svs, blocks, n - 1);
    }
  }

  /** Step `j`'s actions sit in the loop's output at `SetupStart(io, svs, j)`
      when every step emits two actions for a filled selection and one
      otherwise. */
  lemma GatherAt(io: InstanceOptions, svs: seq<Selection>, steps: seq<Result<NewBuffer>>, j: nat)
    requires j < |steps| == |svs| && Gather(svs, steps).Success?
    requires forall k :: 0 <= k < |steps| ==> steps[k].Success? && |steps[k].value.actions| == (if Filled(io, svs[k]) then 2 else 1)
    ensures SetupStart(io, svs, |svs|) == |Gather(svs, steps).value.setup|
    ensures SetupStart(io, svs, j) < |Gather(svs, steps).value.setup|
    ensures Gather(svs, steps).value.setup[SetupStart(io, svs, j)] == steps[j].value.actions[0]
    ensures Filled(io, svs[j]) ==>
              && SetupStart(io, svs, j) + 1 < |Gather(svs, steps).value.setup|
              && Gather(svs, steps).value.setup[SetupStart(io, svs, j) + 1] == steps[j].value.actions[1]
  {
    var blocks := StepActions(steps);
    var setup := Gather(svs, steps).value.setup;
    GatherFlat(svs, steps);
    FlattenLength(blocks);
    StartsAgree(io, svs, blocks, |svs|);
    StartsAgree(io, svs, blocks, j);
    FlattenBlock(blocks, j);
    var p := SetupStart(io, svs, j);
    var n := |blocks[j]|;
    assert setup[p] == setup[p..p + n][0];
    if Filled(io, svs[j]) {
      assert setup[p + 1] == setup[p..p + n][1];
    }
  }

  /** The setup, position by position, for any selection `j`: its
      allocation sits at `SetupStart(io, svs, j)`, directly followed by the
      zero fill of its full view when it is filled, and the setup ends where
      the last selection's actions end. So each filled selection is filled
      once, right after its own allocation. */
  lemma AllocateAndFillAt(io: InstanceOptions, svs: seq<Selection>, layout: ElemType -> nat, ub: UpperBounds, j: nat)
    requires j < |svs| && AllocateAndFill(io, svs, layout, ub).Success?
    ensures |AllocateAndFill(io, svs, layout, ub).value.setup| == SetupStart(io, svs, |svs|)
    ensures NewBufferFor(io, svs[j], layout, ub).Success?
    ensures SetupStart(io, svs, j) < |AllocateAndFill(io, svs, layout, ub).value.setup|
    ensures AllocateAndFill(io, svs, layout, ub).value.setup[SetupStart(io, svs, j)]
            == NewBufferFor(io, svs[j], layout, ub).value.actions[0]
    ensures AllocateAndFill(io, svs, layout, ub).value.setup[SetupStart(io, svs, j)].Alloc?
    ensures Filled(io, svs[j]) ==>
              && SetupStart(io, svs, j) + 1 < |AllocateAndFill(io, svs, layout, ub).value.setup|
              && var a := AllocateAndFill(io, svs, layout, ub).value.setup[SetupStart(io, svs, j) + 1];
              && a.Fill? && a.dst == NewBufferFor(io, svs[j], layout, ub).value.info.fullLocalView
              && IsZeroOf(a.value, svs[j].sv.elem)
  {
    var steps := Iterations(io, svs, layout, ub);
    forall k | 0 <= k < |svs|
      ensures steps[k].Success? && |steps[k].value.actions| == (if Filled(io, svs[k]) then 2 else 1)
    {
      assert steps[k] == AllocateAndFillOne(io, svs[k], layout, ub);
    }
    assert steps[j] == AllocateAndFillOne(io, svs[j], layout, ub);
    GatherAt(io, svs, steps, j);
  }




  /** With distinct operand numbers each selection's promotion info is the
      one its allocation produced; with the default allocator every full view
      is a view of a byte buffer. */
  lemma AllocateAndFillInfos(io: InstanceOptions, svs: seq<Selection>, layout: ElemType -> nat, ub: UpperBounds)
    requires AllocateAndFill(io, svs, layout, ub).Success?
    ensures StrictlyIncreasing(svs) ==> forall j :: 0 <= j < |svs| ==>
              && NewBufferFor(io, svs[j], layout, ub).Success?
              && svs[j].operand in AllocateAndFill(io, svs, layout, ub).value.infos
              && AllocateAndFill(io, svs, layout, ub).value.infos[svs[j].operand] == NewBufferFor(io, svs[j], layout, ub).value.info
    ensures io.allocationFn.DefaultAlloc? ==> forall k :: k in AllocateAndFill(io, svs, layout, ub).value.infos ==>
              AllocateAndFill(io, svs, layout, ub).value.infos[k].fullLocalView.LocalView?
  {
    var steps := Iterations(io, svs, layout, ub);
    GatherKeys(svs, steps);
    if StrictlyIncreasing(svs) {
      GatherInfos(svs, steps);
    }
  }

  predicate CopiedIn(io: InstanceOptions, infos: map<nat, PromotionInfo>, s: Selection) {
    s.operand in infos && s.operand in io.copyIn
  }

  /** The selections the copy-in loop copies, in selection order: those
      with a promotion info that are marked for copy-in. */
  function CopiedInSelections(io: InstanceOptions, infos: map<nat, PromotionInfo>, svs: seq<Selection>): (r: seq<Selection>)
    ensures |r| <= |svs|
    ensures forall k :: 0 <= k < |r| ==> CopiedIn(io, infos, r[k]) && r[k] in svs
    ensures forall j :: 0 <= j < |svs| && CopiedIn(io, infos, svs[j]) ==> svs[j] in r
    decreases |svs|
  {
    if |svs| == 0 then []
    else
      var rest := CopiedInSelections(io, infos, svs[1..]);
      assert forall j :: 1 <= j < |svs| ==> svs[j] == svs[1..][j - 1];
      if CopiedIn(io, infos, svs[0]) then [svs[0]] + rest else rest
  }

  /** Filtering keeps the selection order, so distinct operands stay
      distinct: each copied-in operand is copied once. */
  lemma {:induction false} CopiedInSelectionsIncreasing(io: InstanceOptions, infos: map<nat, PromotionInfo>, svs: seq<Selection>)
    requires StrictlyIncreasing(svs)
    ensures StrictlyIncreasing(CopiedInSelections(io, infos, svs))
    decreases |svs|
  {
    if |svs| > 0 {
      StrictlyIncreasingTail(svs);
      CopiedInSelectionsIncreasing(io, infos, svs[1..]);
      var rest := CopiedInSelections(io, infos, svs[1..]);
      forall k | 0 <= k < |rest| ensures svs[0].operand < rest[k].operand {
        var j :| 0 <= j < |svs[1..]| && svs[1..][j] == rest[k];
      }
    }
  }

  /** The copy-in of selection `s`: from the original subview into the
      partial view. */
  function CopyInPair(infos: map<nat, PromotionInfo>, s: Selection): (Value, Value)
    requires s.operand in infos
  {
    (Pre(SubViewResult(s.sv)), infos[s.operand].partialLocalView)
  }

  /** The second loop of `promoteSubViews`: skips selections without a
      promotion info or not marked for copy-in, and stops at the first copy
      the callback refuses. */
  function CopyIns(io: InstanceOptions, svs: seq<Selection>, infos: map<nat, PromotionInfo>): (r: Result<seq<Action>>)
    ensures r.Success? <==> forall j :: 0 <= j < |svs| && CopiedIn(io, infos, svs[j]) ==>
              CopyAccepted(io.copyInFn, CopyInPair(infos, svs[j]).0, CopyInPair(infos, svs[j]).1)
    ensures r.Failure? ==> r.error == CopyFailed
    ensures r.Success? ==> OnlyCopiesAndBarriers(r.value)
    decreases |svs|
  {
    if |svs| == 0 then Success([])
    else
      var s := svs[0];
      var first :- if CopiedIn(io, infos, s) then CopyData(io.copyInFn, Pre(SubViewResult(s.sv)), infos[s.operand].partialLocalView)
                   else Success([]);
      var rest :- CopyIns(io, svs[1..], infos);
      assert forall j :: 1 <= j < |svs| ==> svs[j] == svs[1..][j - 1];
      assert forall k :: |first| <= k < |first + rest| ==> (first + rest)[k] == rest[k - |first|];
      Success(first + rest)
  }

  /** The copy-ins are exactly one copy per copied-in selection, in
      selection order, from the original subview into its partial view. */
  lemma {:induction false} CopyInsCopies(io: InstanceOptions, svs: seq<Selection>, infos: map<nat, PromotionInfo>)
    requires CopyIns(io, svs, infos).Success?
    ensures forall j :: 0 <= j < |svs| && CopiedIn(io, infos, svs[j]) ==>
              CopyInPair(infos, svs[j]) in Copies(CopyIns(io, svs, infos).value)
    ensures forall c :: c in Copies(CopyIns(io, svs, infos).value) ==>
              exists j :: 0 <= j < |svs| && CopiedIn(io, infos, svs[j]) && c == CopyInPair(infos, svs[j])
    ensures var cs := CopiedInSelections(io, infos, svs);
            && |Copies(CopyIns(io, svs, infos).value)| == |cs|
            && forall k :: 0 <= k < |cs| ==> Copies(CopyIns(io, svs, infos).value)[k] == CopyInPair(infos, cs[k])
    decreases |svs|
  {
    if |svs| > 0 {
      var s := svs[0];
      var first := if CopiedIn(io, infos, s) then CopyData(io.copyInFn, Pre(SubViewResult(s.sv)), infos[s.operand].partialLocalView).value
                   else [];
      var rest := CopyIns(io, svs[1..], infos).value;
      CopyInsCopies(io, svs[1..], infos);
      assert CopyIns(io, svs, infos).value == first + rest;
      PickedAppend(first, rest, CopyPair);
      assert !CopiedIn(io, infos, s) ==> Copies(first) == [];
      assert CopiedInSelections(io, infos, svs) ==
             (if CopiedIn(io, infos, s) then [s] else []) + CopiedInSelections(io, infos, svs[1..]);
      forall j | 0 <= j < |svs| && CopiedIn(io, infos, svs[j])
        ensures CopyInPair(infos, svs[j]) in Copies(first + rest)
      {
        if j > 0 {
          assert svs[j] == svs[1..][j - 1];
        }
      }
      forall c | c in Copies(first + rest)
        ensures exists j :: 0 <= j < |svs| && CopiedIn(io, infos, svs[j]) && c == CopyInPair(infos, svs[j])
      {
        if c !in Copies(first) {
          assert c in Copies(rest);
          var j :| 0 <= j < |svs[1..]| && CopiedIn(io, infos, svs[1..][j]) && c == CopyInPair(infos, svs[1..][j]);
          assert svs[1..][j] == svs[j + 1];
        }
      }
    }
  }

  /** One step of the copy-in loop: the first selection's copy, if it is
      copied in, then the rest. */
  lemma CopyInsStep(io: InstanceOptions, svs: seq<Selection>, infos: map<nat, PromotionInfo>)
    requires |svs| > 0 && CopyIns(io, svs, infos).Success?
    ensures CopyIns(io, svs[1..], infos).Success?
    ensures CopiedIn(io, infos, svs[0]) ==>
              && CopyData(io.copyInFn, CopyInPair(infos, svs[0]).0, CopyInPair(infos, svs[0]).1).Success?
              && CopyIns(io, svs, infos).value ==
                   CopyData(io.copyInFn, CopyInPair(infos, svs[0]).0, CopyInPair(infos, svs[0]).1).value
                   + CopyIns(io, svs[1..], infos).value
    ensures !CopiedIn(io, infos, svs[0]) ==> CopyIns(io, svs, infos).value == CopyIns(io, svs[1..], infos).value
  {
  }

  /** The copy-in pairs of the selections `cs`, in order. */
  function CopyInPairs(infos: map<nat, PromotionInfo>, cs: seq<Selection>): (r: seq<(Value, Value)>)
    requires forall k :: 0 <= k < |cs| ==> cs[k].operand in infos
    ensures |r| == |cs| && forall k :: 0 <= k < |cs| ==> r[k] == CopyInPair(infos, cs[k])
  {
    seq(|cs|, k requires 0 <= k < |cs| => CopyInPair(infos, cs[k]))
  }

  lemma CopyInPairsCons(infos: map<nat, PromotionInfo>, s: Selection, cs: seq<Selection>)
    requires s.operand in infos && forall k :: 0 <= k < |cs| ==> cs[k].operand in infos
    ensures CopyInPairs(infos, [s] + cs) == [CopyInPair(infos, s)] + CopyInPairs(infos, cs)
  {
    var l := CopyInPairs(infos, [s] + cs);
    var r := [CopyInPair(infos, s)] + CopyInPairs(infos, cs);
    forall k | 0 <= k < |l| ensures l[k] == r[k] {
      if k > 0 {
        assert ([s] + cs)[k] == cs[k - 1];
      }
    }
  }

  /** The copy-in actions are the copied-in selections' copies as the
      callback emits them, one block per selection, in selection order: with
      the workgroup callback each copy sits between two barriers. */
  lemma {:induction false} CopyInsFenced(io: InstanceOptions, svs: seq<Selection>, infos: map<nat, PromotionInfo>)
    requires CopyIns(io, svs, infos).Success?
    ensures Fenced(io.copyInFn, CopyIns(io, svs, infos).value, CopyInPairs(infos, CopiedInSelections(io, infos, svs)))
    decreases |svs|
  {
    if |svs| > 0 {
      var s := svs[0];
      CopyInsStep(io, svs, infos);
      var rest := CopyIns(io, svs[1..], infos).value;
      var csRest := CopiedInSelections(io, infos, svs[1..]);
      CopyInsFenced(io, svs[1..], infos);
      if CopiedIn(io, infos, s) {
        var first := CopyData(io.copyInFn, CopyInPair(infos, s).0, CopyInPair(infos, s).1).value;
        assert CopiedInSelections(io, infos, svs) == [s] + csRest;
        CopyInPairsCons(infos, s, csRest);
        FencedCons(io.copyInFn, first, rest, CopyInPair(infos, s), CopyInPairs(infos, csRest));
      } else {
        assert CopiedInSelections(io, infos, svs) == csRest;
      }
    }
  }

  /** What the first `promoteSubViews` overload returns: the promotion info
      per operand number, the allocations and fills, and the copy-ins. */
  datatype Promoted = Promoted(infos: map<nat, PromotionInfo>, setup: seq<Action>, copyIns: seq<Action>)

  /** The first `promoteSubViews` overload. It refuses an op with nothing to
      promote; otherwise it allocates (and fills) every selection and then
      copies in, failing at the first refusal. */
  function PromoteBuffers(io: InstanceOptions, layout: ElemType -> nat, ub: UpperBounds): (r: Result<Promoted>)
    ensures (r.Failure? && r.error == NothingToPromote) <==> |io.subViews| == 0
    ensures r.Success? ==> forall j :: 0 <= j < |io.subViews| ==> SelectionPromotes(io, io.subViews[j], ub)
    ensures (&& |io.subViews| > 0
             && (forall j :: 0 <= j < |io.subViews| ==> SelectionPromotes(io, io.subViews[j], ub))
             && !io.copyInFn.ExternalCopy?) ==> r.Success?
    ensures r.Failure? && r.error == CopyFailed ==> io.copyInFn.ExternalCopy?
    ensures r.Success? ==> r.value.infos.Keys == Operands(io.subViews)
    ensures r.Success? ==> OnlyAllocsAndFills(r.value.setup) && OnlyCopiesAndBarriers(r.value.copyIns)
  {
    if |io.subViews| == 0 then Failure(NothingToPromote)
    else
      var b :- AllocateAndFill(io, io.subViews, layout, ub);
      AllocateAndFillSetup(io, io.subViews, layout, ub);
      var copies :- CopyIns(io, io.subViews, b.infos);
      Success(Promoted(b.infos, b.setup, copies))
  }

  /** A successful first overload is its allocation phase followed by its
      copy-in phase, both successful. */
  lemma PromoteBuffersParts(io: InstanceOptions, layout: ElemType -> nat, ub: UpperBounds)
    ensures PromoteBuffers(io, layout, ub).Success? ==>
              && AllocateAndFill(io, io.subViews, layout, ub).Success?
              && PromoteBuffers(io, layout, ub).value.infos == AllocateAndFill(io, io.subViews, layout, ub).value.infos
              && PromoteBuffers(io, layout, ub).value.setup == AllocateAndFill(io, io.subViews, layout, ub).value.setup
              && CopyIns(io, io.subViews, PromoteBuffers(io, layout, ub).value.infos).Success?
              && PromoteBuffers(io, layout, ub).value.copyIns == CopyIns(io, io.subViews, PromoteBuffers(io, layout, ub).value.infos).value
  {
    if PromoteBuffers(io, layout, ub).Success? {
      assert |io.subViews| > 0;
      var b := AllocateAndFill(io, io.subViews, layout, ub);
      assert b.Success?;
      assert CopyIns(io, io.subViews, b.value.infos).Success?;
    }
  }
}

=== FILE: rewrite.dfy ===
/** The second `promoteSubViews` overload, the public entry point and its
    precondition: the op's operand list is spliced with the promoted views,
    promoted outputs are copied back after the op, and the local buffers are
    released. */
module Rewrite {
  import opened IR
  import opened Tiling
  import opened Allocation
  import opened Policy
  import opened Promotion

  /** A promoted output: the original operand value, and the partial view
      whose contents are copied back into it after the op. */
  datatype Writeback = Writeback(operand: nat, original: Value, partialLocalView: Value)

  /** The rewritten program around the op: the promotion info per promoted
      operand, the op's new operand list, and the actions emitted before the
      op (allocations and fills, then copy-ins) and after it (copy-outs, then
      deallocations). */
  datatype Rewritten = Rewritten(
    infos: map<nat, PromotionInfo>,
    operands: seq<Value>,
    setup: seq<Action>,
    copyIns: seq<Action>,
    copyOuts: seq<Action>,
    deallocs: seq<Action>)
  {
    /** The rewritten program, in order of creation. An allocation marked
        `atFunctionEntry` is shown where it was created; the program holds
        it at the top of the enclosing function instead. */
    function Trace(): seq<Action> {
      setup + copyIns + [Op(operands)] + copyOuts + deallocs
    }
  }

  /** The operand the rewritten op reads in place of operand `i`: a promoted
      operand reads its full view or its partial view according to its flag;
      any other operand is kept. */
  function NewOperand(op: LinalgOp, io: InstanceOptions, infos: map<nat, PromotionInfo>, i: nat): Value
    requires i < |op.operands| && Operands(io.subViews) <= infos.Keys
  {
    if i in Operands(io.subViews) then
      if FullTileFlagOf(io, op.operands[i]) then infos[i].fullLocalView else infos[i].partialLocalView
    else Pre(op.operands[i])
  }

  function Splice(op: LinalgOp, io: InstanceOptions, infos: map<nat, PromotionInfo>): (r: seq<Value>)
    requires Operands(io.subViews) <= infos.Keys
    ensures |r| == |op.operands|
    ensures forall i :: 0 <= i < |op.operands| ==> r[i] == NewOperand(op, io, infos, i)
  {
    seq(|op.operands|, i requires 0 <= i < |op.operands| => NewOperand(op, io, infos, i))
  }

  /** The write-back pairs of the first `n` operands: one per promoted
      output (operand number at least the input count), in operand order. */
  function Writebacks(op: LinalgOp, io: InstanceOptions, infos: map<nat, PromotionInfo>, n: nat): (r: seq<Writeback>)
    requires n <= |op.operands| && Operands(io.subViews) <= infos.Keys
    ensures forall k :: 0 <= k < |r| ==>
              && op.numInputs <= r[k].operand < n
              && r[k].operand in Operands(io.subViews)
              && r[k].original == Pre(op.operands[r[k].operand])
              && r[k].partialLocalView == infos[r[k].operand].partialLocalView
    ensures forall k, l :: 0 <= k < l < |r| ==> r[k].operand < r[l].operand
  {
    if n == 0 then []
    else
      var rest := Writebacks(op, io, infos, n - 1);
      var i := n - 1;
      if i in Operands(io.subViews) && i >= op.numInputs then
        rest + [Writeback(i, Pre(op.operands[i]), infos[i].partialLocalView)]
      else rest
  }

  /** Every promoted output among the first `n` operands has a write-back
      pair. */
  lemma {:induction false} WritebacksCover(op: LinalgOp, io: InstanceOptions, infos: map<nat, PromotionInfo>, n: nat, i: nat)
    requires n <= |op.operands| && Operands(io.subViews) <= infos.Keys
    requires op.numInputs <= i < n && i in Operands(io.subViews)
    ensures exists k :: 0 <= k < |Writebacks(op, io, infos, n)| && Writebacks(op, io, infos, n)[k].operand == i
  {
    var r := Writebacks(op, io, infos, n);
    if i == n - 1 {
      assert r[|r| - 1].operand == i;
    } else {
      WritebacksCover(op, io, infos, n - 1, i);
      var rest := Writebacks(op, io, infos, n - 1);
      var k :| 0 <= k < |rest| && rest[k].operand == i;
      assert r[k] == rest[k];
    }
  }

  /** The write-back loop after the op: one copy per write-back pair, from
      the partial view back into the original operand, in order; it stops at
      the first copy the callback refuses. */
  function CopyOuts(fn: CopyFn, wbs: seq<Writeback>): (r: Result<seq<Action>>)
    ensures r.Success? <==> forall k :: 0 <= k < |wbs| ==> CopyAccepted(fn, wbs[k].partialLocalView, wbs[k].original)
    ensures r.Failure? ==> r.error == CopyFailed
    ensures r.Success? ==> OnlyCopiesAndBarriers(r.value)
    ensures r.Success? ==> Copies(r.value) == seq(|wbs|, k requires 0 <= k < |wbs| => (wbs[k].partialLocalView, wbs[k].original))
    decreases |wbs|
  {
    if |wbs| == 0 then Success([])
    else
      var first :- CopyData(fn, wbs[0].partialLocalView, wbs[0].original);
      var rest :- CopyOuts(fn, wbs[1..]);
      assert forall k :: 1 <= k < |wbs| ==> wbs[k] == wbs[1..][k - 1];
      assert forall k :: |first| <= k < |first + rest| ==> (first + rest)[k] == rest[k - |first|];
      PickedAppend(first, rest, CopyPair);
      Success(first + rest)
  }

  /** The copy pairs of the write-backs, in order: partial view back into
      the original operand. */
  function WritebackPairs(wbs: seq<Writeback>): (r: seq<(Value, Value)>)
    ensures |r| == |wbs| && forall k :: 0 <= k < |wbs| ==> r[k] == (wbs[k].partialLocalView, wbs[k].original)
  {
    seq(|wbs|, k requires 0 <= k < |wbs| => (wbs[k].partialLocalView, wbs[k].original))
  }

  /** The copy-out actions are the write-backs' copies as the callback
      emits them, one block per write-back, in order: with the workgroup
      callback each copy sits between two barriers. */
  lemma {:induction false} CopyOutsFenced(fn: CopyFn, wbs: seq<Writeback>)
    requires CopyOuts(fn, wbs).Success?
    ensures Fenced(fn, CopyOuts(fn, wbs).value, WritebackPairs(wbs))
    decreases |wbs|
  {
    if |wbs| > 0 {
      var first := CopyData(fn, wbs[0].partialLocalView, wbs[0].original).value;
      var rest := CopyOuts(fn, wbs[1..]).value;
      CopyOutsFenced(fn, wbs[1..]);
      assert CopyOuts(fn, wbs).value == first + rest;
      assert WritebackPairs(wbs) == [(wbs[0].partialLocalView, wbs[0].original)] + WritebackPairs(wbs[1..]);
      FencedCons(fn, first, rest, (wbs[0].partialLocalView, wbs[0].original), WritebackPairs(wbs[1..]));
    }
  }

  /** The deallocation loop: the bound callback applied to every promoted
      buffer's full view, in selection order. */
  function Deallocs(io: InstanceOptions, svs: seq<Selection>, infos: map<nat, PromotionInfo>): (r: seq<Action>)
    requires Operands(svs) <= infos.Keys
    requires io.deallocationFn.DefaultDealloc? && !io.config.useAlloca ==>
               forall k :: k in infos ==> infos[k].fullLocalView.LocalView?
    ensures |r| == (if io.deallocationFn.DefaultDealloc? && !io.config.useAlloca then |svs| else 0)
    ensures forall k :: 0 <= k < |r| ==> svs[k].operand in infos && r[k] == Dealloc(infos[svs[k].operand].fullLocalView.source)
    decreases |svs|
  {
    if |svs| == 0 then []
    else
      OperandsCons(svs);
      var first := Deallocate(io.deallocationFn, io.config.useAlloca, infos[svs[0].operand].fullLocalView);
      var rest := Deallocs(io, svs[1..], infos);
      assert forall k :: 1 <= k < |svs| ==> svs[k] == svs[1..][k - 1];
      first + rest
  }

  /** The default deallocator only accepts the view the default allocator
      made; every other pairing is left to the caller. */
  predicate DeallocCompatible(io: InstanceOptions) {
    io.deallocationFn.DefaultDealloc? && !io.config.useAlloca ==> io.allocationFn.DefaultAlloc?
  }

  predicate AllDeallocs(actions: seq<Action>) {
    forall k :: 0 <= k < |actions| ==> actions[k].Dealloc?
  }

  /** Each part of the rewritten program holds only its own kind of action. */
  predicate WellPhased(r: Rewritten) {
    && OnlyAllocsAndFills(r.setup)
    && OnlyCopiesAndBarriers(r.copyIns)
    && OnlyCopiesAndBarriers(r.copyOuts)
    && AllDeallocs(r.deallocs)
  }

  lemma {:induction false} OperandsCount(svs: seq<Selection>)
    requires StrictlyIncreasing(svs)
    ensures |Operands(svs)| == |svs|
  {
    if |svs| > 0 {
      StrictlyIncreasingTail(svs);
      OperandsCount(svs[1..]);
      OperandsCons(svs);
      assert svs[0].operand !in Operands(svs[1..]);
    }
  }

  /** With the default allocator every promoted full view is a view of a
      fresh buffer, which the default deallocator can release. */
  lemma DefaultAllocViews(io: InstanceOptions, layout: ElemType -> nat, ub: UpperBounds)
    ensures PromoteBuffers(io, layout, ub).Success? && io.allocationFn.DefaultAlloc? ==>
              forall k :: k in PromoteBuffers(io, layout, ub).value.infos ==>
                PromoteBuffers(io, layout, ub).value.infos[k].fullLocalView.LocalView?
  {
    if PromoteBuffers(io, layout, ub).Success? {
      PromoteBuffersParts(io, layout, ub);
      AllocateAndFillInfos(io, io.subViews, layout, ub);
    }
  }

  /** The part of the rewrite after the buffers exist: splice the operands,
      copy the promoted outputs back, release the buffers. */
  function Finish(op: LinalgOp, io: InstanceOptions, p: Promoted): (r: Result<Rewritten>)
    requires p.infos.Keys == Operands(io.subViews)
    requires io.deallocationFn.DefaultDealloc? && !io.config.useAlloca ==>
               forall k :: k in p.infos ==> p.infos[k].fullLocalView.LocalView?
    ensures r.Failure? ==> r.error == CopyFailed && io.copyOutFn.ExternalCopy?
    ensures r.Success? ==> |r.value.operands| == |op.operands|
    ensures r.Success? ==> forall i :: 0 <= i < |op.operands| && i !in Operands(io.subViews) ==>
              r.value.operands[i] == Pre(op.operands[i])
    ensures r.Success? ==> r.value.infos == p.infos && r.value.setup == p.setup && r.value.copyIns == p.copyIns
    ensures r.Success? ==> OnlyCopiesAndBarriers(r.value.copyOuts) && AllDeallocs(r.value.deallocs)
    ensures r.Success? ==>
              |r.value.deallocs| == (if io.deallocationFn.DefaultDealloc? && !io.config.useAlloca then |io.subViews| else 0)
  {
    var wbs := Writebacks(op, io, p.infos, |op.operands|);
    var outs :- CopyOuts(io.copyOutFn, wbs);
    Success(Rewritten(p.infos, Splice(op, io, p.infos), p.setup, p.copyIns, outs, Deallocs(io, io.subViews, p.infos)))
  }

  /** The second `promoteSubViews` overload. It fails when the first one
      does, when the number of promotion infos differs from the number of
      selections, or when a copy-out is refused; otherwise it splices the
      operands and emits the copy-outs and deallocations. */
  function PromoteOperands(op: LinalgOp, io: InstanceOptions, layout: ElemType -> nat, ub: UpperBounds): (r: Result<Rewritten>)
    requires op.pureBuffer
    requires DeallocCompatible(io)
    ensures (r.Failure? && r.error == NothingToPromote) <==> |io.subViews| == 0
    ensures StrictlyIncreasing(io.subViews) ==> !(r.Failure? && r.error == PromotedCountMismatch)
    ensures r.Failure? && r.error == CopyFailed ==> io.copyInFn.ExternalCopy? || io.copyOutFn.ExternalCopy?
    ensures r.Success? ==> |r.value.operands| == |op.operands|
    ensures r.Success? ==> forall i :: 0 <= i < |op.operands| && i !in Operands(io.subViews) ==>
              r.value.operands[i] == Pre(op.operands[i])
    ensures r.Success? ==> r.value.infos.Keys == Operands(io.subViews)
    ensures r.Success? ==> WellPhased(r.value)
    ensures r.Success? ==>
              |r.value.deallocs| == (if io.deallocationFn.DefaultDealloc? && !io.config.useAlloca then |io.subViews| else 0)
  {
    var p :- PromoteBuffers(io, layout, ub);
    if |p.infos| != |io.subViews| then
      if StrictlyIncreasing(io.subViews) then
        OperandsCount(io.subViews);
        assert false;
        Failure(PromotedCountMismatch)
      else Failure(PromotedCountMismatch)
    else
      DefaultAllocViews(io, layout, ub);
      Finish(op, io, p)
  }

  /** A successful rewrite is the first overload's result finished by the
      splice, the copy-outs and the deallocations. */
  lemma PromoteOperandsParts(op: LinalgOp, io: InstanceOptions, layout: ElemType -> nat, ub: UpperBounds)
    requires op.pureBuffer && DeallocCompatible(io)
    ensures PromoteOperands(op, io, layout, ub).Success? ==>
              && PromoteBuffers(io, layout, ub).Success?
              && PromoteBuffers(io, layout, ub).value.infos.Keys == Operands(io.subViews)
              && (io.allocationFn.DefaultAlloc? ==> forall k :: k in PromoteBuffers(io, layout, ub).value.infos ==>
                    PromoteBuffers(io, layout, ub).value.infos[k].fullLocalView.LocalView?)
              && PromoteOperands(op, io, layout, ub).value.infos == PromoteBuffers(io, layout, ub).value.infos
              && PromoteOperands(op, io, layout, ub).value.setup == PromoteBuffers(io, layout, ub).value.setup
              && PromoteOperands(op, io, layout, ub).value.copyIns == PromoteBuffers(io, layout, ub).value.copyIns
              && PromoteOperands(op, io, layout, ub).value.operands == Splice(op, io, PromoteBuffers(io, layout, ub).value.infos)
              && CopyOuts(io.copyOutFn, Writebacks(op, io, PromoteBuffers(io, layout, ub).value.infos, |op.operands|)).Success?
              && PromoteOperands(op, io, layout, ub).value.copyOuts ==
                   CopyOuts(io.copyOutFn, Writebacks(op, io, PromoteBuffers(io, layout, ub).value.infos, |op.operands|)).value
              && PromoteOperands(op, io, layout, ub).value.deallocs == Deallocs(io, io.subViews, PromoteBuffers(io, layout, ub).value.infos)
  {
    DefaultAllocViews(io, layout, ub);
  }

  /** The selection that promotes operand `i`. */
  lemma SelectionAt(op: LinalgOp, svs: seq<Selection>, i: nat) returns (j: nat)
    requires SelectionsOf(op, svs) && i in Operands(svs)
    ensures j < |svs| && svs[j].operand == i
    ensures i < |op.operands| && op.operands[i] == SubViewResult(svs[j].sv)
  {
    j :| 0 <= j < |svs| && svs[j].operand == i;
  }

  /** An op with pure buffer semantics, compatible callbacks, and selections
      that belong to it. */
  predicate WellFormedInput(op: LinalgOp, io: InstanceOptions) {
    && op.pureBuffer
    && DeallocCompatible(io)
    && SelectionsOf(op, io.subViews)
  }

  /** A promoted operand gets a full view of the full-tile sizes and a
      partial view that is the window of the full view at the origin with
      the subview's own sizes, which fits inside the full view; the op reads
      the full view when the operand's flag is set and the partial view
      otherwise. */
  lemma PromotedViews(op: LinalgOp, io: InstanceOptions, layout: ElemType -> nat, ub: UpperBounds, i: nat)
    requires WellFormedInput(op, io) && i in Operands(io.subViews)
    ensures i < |op.operands| && op.operands[i].SubViewResult?
    ensures FitsWithin(KeptSizes(op.operands[i].sv.dims), TileSizes(op.operands[i].sv.dims, io.useOriginalSubviewSize, ub).full, ub)
    ensures PromoteOperands(op, io, layout, ub).Success? ==>
              var r := PromoteOperands(op, io, layout, ub).value;
              && i in r.infos
              && ViewSizes(r.infos[i].fullLocalView) == Some(TileSizes(op.operands[i].sv.dims, io.useOriginalSubviewSize, ub).full)
              && IsWindowAtOrigin(r.infos[i].partialLocalView, r.infos[i].fullLocalView, KeptSizes(op.operands[i].sv.dims))
              && r.operands[i] == if FullTileFlagOf(io, op.operands[i]) then r.infos[i].fullLocalView else r.infos[i].partialLocalView
  {
    var j := SelectionAt(op, io.subViews, i);
    var t := TileSizes(op.operands[i].sv.dims, io.useOriginalSubviewSize, ub);
    assert |t.full| == |KeptSizes(op.operands[i].sv.dims)|;
    if PromoteOperands(op, io, layout, ub).Success? {
      PromoteOperandsParts(op, io, layout, ub);
      PromoteBuffersParts(io, layout, ub);
      AllocateAndFillInfos(io, io.subViews, layout, ub);
      assert NewBufferFor(io, io.subViews[j], layout, ub).Success?;
    }
  }

  /** Every full view the op reads through a set flag is filled with the
      zero of its element type before the op. */
  lemma FullTilesAreZeroFilled(op: LinalgOp, io: InstanceOptions, layout: ElemType -> nat, ub: UpperBounds, i: nat)
    requires WellFormedInput(op, io) && i in Operands(io.subViews)
    requires i < |op.operands| && FullTileFlagOf(io, op.operands[i])
    ensures PromoteOperands(op, io, layout, ub).Success? ==>
              var r := PromoteOperands(op, io, layout, ub).value;
              && i in r.infos
              && exists c :: IsZeroOf(c, op.operands[i].sv.elem) && Fill(c, r.infos[i].fullLocalView) in r.setup
  {
    if PromoteOperands(op, io, layout, ub).Success? {
      PromoteOperandsParts(op, io, layout, ub);
      PromoteBuffersParts(io, layout, ub);
      AllocateAndFillInfos(io, io.subViews, layout, ub);
      AllocateAndFillFills(io, io.subViews, layout, ub);
      var j := SelectionAt(op, io.subViews, i);
      assert Filled(io, io.subViews[j]);
    }
  }

  /** The fills of the allocation loop over selections that belong to the
      op, stated per operand number. */
  lemma FillsByOperand(op: LinalgOp, io: InstanceOptions, layout: ElemType -> nat, ub: UpperBounds)
    requires SelectionsOf(op, io.subViews)
    requires AllocateAndFill(io, io.subViews, layout, ub).Success?
    ensures forall a :: a in AllocateAndFill(io, io.subViews, layout, ub).value.setup && a.Fill? ==>
              exists i :: && i in Operands(io.subViews) && i < |op.operands|
                          && op.operands[i].SubViewResult? && FullTileFlagOf(io, op.operands[i])
                          && i in AllocateAndFill(io, io.subViews, layout, ub).value.infos
                          && a.dst == AllocateAndFill(io, io.subViews, layout, ub).value.infos[i].fullLocalView
                          && IsZeroOf(a.value, op.operands[i].sv.elem)
  {
    AllocateAndFillInfos(io, io.subViews, layout, ub);
    AllocateAndFillFills(io, io.subViews, layout, ub);
    var svs := io.subViews;
    var b := AllocateAndFill(io, svs, layout, ub).value;
    forall a | a in b.setup && a.Fill?
      ensures exists i :: && i in Operands(svs) && i < |op.operands|
                          && op.operands[i].SubViewResult? && FullTileFlagOf(io, op.operands[i])
                          && i in b.infos && a.dst == b.infos[i].fullLocalView
                          && IsZeroOf(a.value, op.operands[i].sv.elem)
    {
      var j :| && 0 <= j < |svs| && Filled(io, svs[j])
               && NewBufferFor(io, svs[j], layout, ub).Success?
               && a.dst == NewBufferFor(io, svs[j], layout, ub).value.info.fullLocalView
               && IsZeroOf(a.value, svs[j].sv.elem);
      assert svs[j].operand in Operands(svs);
    }
  }

  /** The only fills are those of full views of flagged operands, with the
      zero of the operand's element type. */
  lemma FillsOnlyFullTiles(op: LinalgOp, io: InstanceOptions, layout: ElemType -> nat, ub: UpperBounds)
    requires WellFormedInput(op, io)
    ensures PromoteOperands(op, io, layout, ub).Success? ==>
              var r := PromoteOperands(op, io, layout, ub).value;
              forall a :: a in r.setup && a.Fill? ==>
                exists i :: && i in Operands(io.subViews) && i < |op.operands|
                            && op.operands[i].SubViewResult? && FullTileFlagOf(io, op.operands[i])
                            && i in r.infos
                            && a.dst == r.infos[i].fullLocalView
                            && IsZeroOf(a.value, op.operands[i].sv.elem)
  {
    if PromoteOperands(op, io, layout, ub).Success? {
      PromoteOperandsParts(op, io, layout, ub);
      PromoteBuffersParts(io, layout, ub);
      FillsByOperand(op, io, layout, ub);
    }
  }

  /** The setup of the rewrite, selection by selection: the `j`-th
      selection's allocation sits at `SetupStart(io, io.subViews, j)`, and
      when its operand's full-tile flag is set the very next action fills
      that operand's full view with the zero of its element type. */
  lemma SetupOfRewrite(op: LinalgOp, io: InstanceOptions, layout: ElemType -> nat, ub: UpperBounds, j: nat)
    requires WellFormedInput(op, io) && j < |io.subViews|
    ensures PromoteOperands(op, io, layout, ub).Success? ==>
              var r := PromoteOperands(op, io, layout, ub).value;
              var i := io.subViews[j].operand;
              var p := SetupStart(io, io.subViews, j);
              && |r.setup| == SetupStart(io, io.subViews, |io.subViews|)
              && i < |op.operands| && i in r.infos
              && p < |r.setup| && r.setup[p].Alloc?
              && (FullTileFlagOf(io, op.operands[i]) ==>
                    && p + 1 < |r.setup| && r.setup[p + 1].Fill?
                    && r.setup[p + 1].dst == r.infos[i].fullLocalView
                    && IsZeroOf(r.setup[p + 1].value, op.operands[i].sv.elem))
  {
    if PromoteOperands(op, io, layout, ub).Success? {
      PromoteOperandsParts(op, io, layout, ub);
      PromoteBuffersParts(io, layout, ub);
      AllocateAndFillInfos(io, io.subViews, layout, ub);
      AllocateAndFillAt(io, io.subViews, layout, ub, j);
    }
  }

  /** Both copy phases of the rewrite are fenced: with the workgroup copy
      callback every copy sits between two barriers, and otherwise the
      phase holds one copy per pair and nothing else. */
  lemma CopyPhasesFenced(op: LinalgOp, io: InstanceOptions, layout: ElemType -> nat, ub: UpperBounds)
    requires WellFormedInput(op, io)
    ensures PromoteOperands(op, io, layout, ub).Success? ==>
              var r := PromoteOperands(op, io, layout, ub).value;
              && Fenced(io.copyInFn, r.copyIns, CopyInPairs(r.infos, CopiedInSelections(io, r.infos, io.subViews)))
              && Fenced(io.copyOutFn, r.copyOuts, WritebackPairs(Writebacks(op, io, r.infos, |op.operands|)))
  {
    if PromoteOperands(op, io, layout, ub).Success? {
      PromoteOperandsParts(op, io, layout, ub);
      PromoteBuffersParts(io, layout, ub);
      var b := PromoteBuffers(io, layout, ub).value;
      CopyInsFenced(io, io.subViews, b.infos);
      CopyOutsFenced(io.copyOutFn, Writebacks(op, io, b.infos, |op.operands|));
    }
  }

  /** The copy-ins for selections that belong to the op, stated per
      operand number. */
  lemma CopyInsByOperand(op: LinalgOp, io: InstanceOptions, infos: map<nat, PromotionInfo>)
    requires SelectionsOf(op, io.subViews) && infos.Keys == Operands(io.subViews)
    requires CopyIns(io, io.subViews, infos).Success?
    ensures forall i :: i in Operands(io.subViews) && i in io.copyIn && i < |op.operands| ==>
              (Pre(op.operands[i]), infos[i].partialLocalView) in Copies(CopyIns(io, io.subViews, infos).value)
    ensures forall c :: c in Copies(CopyIns(io, io.subViews, infos).value) ==>
              exists i :: && i in Operands(io.subViews) && i in io.copyIn && i < |op.operands|
                          && c == (Pre(op.operands[i]), infos[i].partialLocalView)
    ensures var cs := CopiedInSelections(io, infos, io.subViews);
            && StrictlyIncreasing(cs)
            && |Copies(CopyIns(io, io.subViews, infos).value)| == |cs|
            && forall k :: 0 <= k < |cs| ==>
                 && cs[k].operand in io.copyIn && cs[k].operand < |op.operands|
                 && Copies(CopyIns(io, io.subViews, infos).value)[k]
                    == (Pre(op.operands[cs[k].operand]), infos[cs[k].operand].partialLocalView)
  {
    var svs := io.subViews;
    CopyInsCopies(io, svs, infos);
    CopiedInSelectionsIncreasing(io, infos, svs);
    var cs := CopiedInSelections(io, infos, svs);
    forall k | 0 <= k < |cs|
      ensures cs[k].operand < |op.operands| && op.operands[cs[k].operand] == SubViewResult(cs[k].sv)
    {
      var j :| 0 <= j < |svs| && svs[j] == cs[k];
    }
    forall i | i in Operands(svs) && i in io.copyIn && i < |op.operands|
      ensures (Pre(op.operands[i]), infos[i].partialLocalView) in Copies(CopyIns(io, svs, infos).value)
    {
      var j := SelectionAt(op, svs, i);
      assert CopiedIn(io, infos, svs[j]);
    }
    forall c | c in Copies(CopyIns(io, svs, infos).value)
      ensures exists i :: && i in Operands(svs) && i in io.copyIn && i < |op.operands|
                          && c == (Pre(op.operands[i]), infos[i].partialLocalView)
    {
      var j :| 0 <= j < |svs| && CopiedIn(io, infos, svs[j]) && c == CopyInPair(infos, svs[j]);
      assert svs[j].operand in Operands(svs);
    }
  }

  /** The copy-ins are exactly one copy per promoted operand marked for
      copy-in, in increasing operand order, from the original subview into
      its partial view. */
  lemma CopyInsOfRewrite(op: LinalgOp, io: InstanceOptions, layout: ElemType -> nat, ub: UpperBounds)
    requires WellFormedInput(op, io)
    ensures PromoteOperands(op, io, layout, ub).Success? ==>
              var r := PromoteOperands(op, io, layout, ub).value;
              && (forall i :: i in Operands(io.subViews) && i in io.copyIn && i < |op.operands| ==>
                    i in r.infos && (Pre(op.operands[i]), r.infos[i].partialLocalView) in Copies(r.copyIns))
              && (forall c :: c in Copies(r.copyIns) ==>
                    exists i :: && i in Operands(io.subViews) && i in io.copyIn && i < |op.operands|
                                && i in r.infos && c == (Pre(op.operands[i]), r.infos[i].partialLocalView))
              && var cs := CopiedInSelections(io, r.infos, io.subViews);
              && StrictlyIncreasing(cs)
              && |Copies(r.copyIns)| == |cs|
              && (forall k :: 0 <= k < |cs| ==>
                    && cs[k].operand in io.copyIn && cs[k].operand < |op.operands| && cs[k].operand in r.infos
                    && Copies(r.copyIns)[k] == (Pre(op.operands[cs[k].operand]), r.infos[cs[k].operand].partialLocalView))
  {
    if PromoteOperands(op, io, layout, ub).Success? {
      PromoteOperandsParts(op, io, layout, ub);
      PromoteBuffersParts(io, layout, ub);
      CopyInsByOperand(op, io, PromoteBuffers(io, layout, ub).value.infos);
    }
  }

  /** The copy-outs of the write-back pairs of all operands, stated per
      operand number. */
  lemma CopyOutsByOperand(op: LinalgOp, io: InstanceOptions, infos: map<nat, PromotionInfo>)
    requires Operands(io.subViews) <= infos.Keys
    requires CopyOuts(io.copyOutFn, Writebacks(op, io, infos, |op.operands|)).Success?
    ensures forall i :: op.numInputs <= i < |op.operands| && i in Operands(io.subViews) ==>
              (infos[i].partialLocalView, Pre(op.operands[i]))
              in Copies(CopyOuts(io.copyOutFn, Writebacks(op, io, infos, |op.operands|)).value)
    ensures forall c :: c in Copies(CopyOuts(io.copyOutFn, Writebacks(op, io, infos, |op.operands|)).value) ==>
              exists i :: && op.numInputs <= i < |op.operands| && i in Operands(io.subViews)
                          && c == (infos[i].partialLocalView, Pre(op.operands[i]))
  {
    var wbs := Writebacks(op, io, infos, |op.operands|);
    var copies := Copies(CopyOuts(io.copyOutFn, wbs).value);
    forall i | op.numInputs <= i < |op.operands| && i in Operands(io.subViews)
      ensures (infos[i].partialLocalView, Pre(op.operands[i])) in copies
    {
      WritebacksCover(op, io, infos, |op.operands|, i);
      var k :| 0 <= k < |wbs| && wbs[k].operand == i;
      assert copies[k] == (wbs[k].partialLocalView, wbs[k].original);
    }
    forall c | c in copies
      ensures exists i :: && op.numInputs <= i < |op.operands| && i in Operands(io.subViews)
                          && c == (infos[i].partialLocalView, Pre(op.operands[i]))
    {
      var k :| 0 <= k < |copies| && copies[k] == c;
      assert wbs[k].operand in Operands(io.subViews);
    }
  }

  /** The copy-outs are exactly one copy per promoted output, from its
      partial view back into the original operand. */
  lemma CopyOutsOfRewrite(op: LinalgOp, io: InstanceOptions, layout: ElemType -> nat, ub: UpperBounds)
    requires WellFormedInput(op, io)
    ensures PromoteOperands(op, io, layout, ub).Success? ==>
              var r := PromoteOperands(op, io, layout, ub).value;
              && (forall i :: op.numInputs <= i < |op.operands| && i in Operands(io.subViews) ==>
                    i in r.infos && (r.infos[i].partialLocalView, Pre(op.operands[i])) in Copies(r.copyOuts))
              && (forall c :: c in Copies(r.copyOuts) ==>
                    exists i :: && op.numInputs <= i < |op.operands| && i in Operands(io.subViews)
                                && i in r.infos && c == (r.infos[i].partialLocalView, Pre(op.operands[i])))
  {
    if PromoteOperands(op, io, layout, ub).Success? {
      PromoteOperandsParts(op, io, layout, ub);
      CopyOutsByOperand(op, io, PromoteBuffers(io, layout, ub).value.infos);
    }
  }

  /** With the default deallocator and heap buffers, the k-th deallocation
      releases the k-th allocated buffer; otherwise nothing is released. */
  lemma DeallocsFreeAllocations(op: LinalgOp, io: InstanceOptions, layout: ElemType -> nat, ub: UpperBounds)
    requires WellFormedInput(op, io)
    ensures PromoteOperands(op, io, layout, ub).Success? && io.deallocationFn.DefaultDealloc? && !io.config.useAlloca ==>
              var r := PromoteOperands(op, io, layout, ub).value;
              && |r.deallocs| == |Allocs(r.setup)|
              && forall k :: 0 <= k < |r.deallocs| ==> r.deallocs[k] == Dealloc(Allocs(r.setup)[k].buffer)
    ensures PromoteOperands(op, io, layout, ub).Success? && !(io.deallocationFn.DefaultDealloc? && !io.config.useAlloca) ==>
              PromoteOperands(op, io, layout, ub).value.deallocs == []
  {
    if PromoteOperands(op, io, layout, ub).Success? && io.deallocationFn.DefaultDealloc? && !io.config.useAlloca {
      PromoteOperandsParts(op, io, layout, ub);
      PromoteBuffersParts(io, layout, ub);
      AllocateAndFillSetup(io, io.subViews, layout, ub);
      AllocateAndFillInfos(io, io.subViews, layout, ub);
      var svs := io.subViews;
      var infos := PromoteBuffers(io, layout, ub).value.infos;
      forall k | 0 <= k < |svs|
        ensures Deallocs(io, svs, infos)[k] == Dealloc(Allocs(PromoteBuffers(io, layout, ub).value.setup)[k].buffer)
      {
        assert NewBufferFor(io, svs[k], layout, ub).Success?;
      }
    }
  }

  /** Each element of the rewritten program, by position. */
  lemma TraceAt(r: Rewritten, k: int)
    requires 0 <= k < |r.Trace()|
    ensures k < |r.setup| ==> r.Trace()[k] == r.setup[k]
    ensures |r.setup| <= k < |r.setup| + |r.copyIns| ==> r.Trace()[k] == r.copyIns[k - |r.setup|]
    ensures k == |r.setup| + |r.copyIns| ==> r.Trace()[k] == Op(r.operands)
    ensures |r.setup| + |r.copyIns| < k <= |r.setup| + |r.copyIns| + |r.copyOuts| ==>
              r.Trace()[k] == r.copyOuts[k - |r.setup| - |r.copyIns| - 1]
    ensures |r.setup| + |r.copyIns| + |r.copyOuts| < k ==>
              r.Trace()[k] == r.deallocs[k - |r.setup| - |r.copyIns| - |r.copyOuts| - 1]
  {
  }

  /** In the rewritten program the op occurs once; allocations and fills
      come first, then the copy-ins, the op, the copy-outs and the
      deallocations. */
  lemma TraceOrder(r: Rewritten)
    requires WellPhased(r)
    ensures |r.Trace()| == |r.setup| + |r.copyIns| + |r.copyOuts| + |r.deallocs| + 1
    ensures r.Trace()[|r.setup| + |r.copyIns|] == Op(r.operands)
    ensures forall k :: 0 <= k < |r.Trace()| && r.Trace()[k].Op? ==> k == |r.setup| + |r.copyIns|
    ensures forall k :: 0 <= k < |r.Trace()| && (r.Trace()[k].Alloc? || r.Trace()[k].Fill?) ==> k < |r.setup|
    ensures forall k :: 0 <= k < |r.Trace()| && r.Trace()[k].Copy? && k < |r.setup| + |r.copyIns| ==> |r.setup| <= k
    ensures forall k :: 0 <= k < |r.Trace()| && r.Trace()[k].Dealloc? ==>
              |r.setup| + |r.copyIns| + |r.copyOuts| < k
  {
    forall k | 0 <= k < |r.Trace()|
      ensures r.Trace()[k].Op? ==> k == |r.setup| + |r.copyIns|
      ensures r.Trace()[k].Alloc? || r.Trace()[k].Fill? ==> k < |r.setup|
      ensures r.Trace()[k].Copy? && k < |r.setup| + |r.copyIns| ==> |r.setup| <= k
      ensures r.Trace()[k].Dealloc? ==> |r.setup| + |r.copyIns| + |r.copyOuts| < k
    {
      TraceAt(r, k);
    }
    TraceAt(r, |r.setup| + |r.copyIns|);
  }

  /** With copy callbacks that never refuse, the rewrite succeeds exactly
      when there is something to promote and every selection's buffer can be
      allocated (and zero-filled when flagged). */
  lemma RewriteSucceedsIff(op: LinalgOp, io: InstanceOptions, layout: ElemType -> nat, ub: UpperBounds)
    requires op.pureBuffer && DeallocCompatible(io) && SelectionsOf(op, io.subViews)
    requires !io.copyInFn.ExternalCopy? && !io.copyOutFn.ExternalCopy?
    ensures PromoteOperands(op, io, layout, ub).Success? <==>
              |io.subViews| > 0 && forall j :: 0 <= j < |io.subViews| ==> SelectionPromotes(io, io.subViews[j], ub)
  {
    if PromoteOperands(op, io, layout, ub).Success? {
      PromoteOperandsParts(op, io, layout, ub);
    }
  }

  /** Operand `i` onward holds a subview that passes the operand filter. */
  function SomePromotableFrom(op: LinalgOp, options: PromotionOptions, i: nat): (b: bool)
    requires i <= |op.operands|
    ensures b <==> exists k: nat :: i <= k < |op.operands| && Promotable(op, options, k)
    decreases |op.operands| - i
  {
    if i == |op.operands| then false
    else if op.operands[i].SubViewResult? && Requested(options, i) then
      assert Promotable(op, options, i);
      true
    else SomePromotableFrom(op, options, i + 1)
  }

  /** `promoteSubviewsPrecondition`: a linalg op with pure buffer semantics
      having at least one operand that is a subview and passes the filter. */
  function PromoteSubviewsPrecondition(o: Operation, options: PromotionOptions): (ok: bool)
    ensures ok <==> o.Linalg? && o.op.pureBuffer && exists i: nat :: Promotable(o.op, options, i)
  {
    o.Linalg? && o.op.pureBuffer && SomePromotableFrom(o.op, options, 0)
  }

  /** The precondition holds exactly when the per-instance policy selects
      something to promote. */
  lemma PreconditionIffSelection(op: LinalgOp, options: PromotionOptions)
    requires op.pureBuffer
    ensures PromoteSubviewsPrecondition(Linalg(op), options) <==> |MakeInstanceOptions(op, options).subViews| > 0
  {
    var io := MakeInstanceOptions(op, options);
    if |io.subViews| > 0 {
      assert io.subViews[0].operand in Operands(io.subViews);
    }
    if PromoteSubviewsPrecondition(Linalg(op), options) {
      var i: nat :| Promotable(op, options, i);
      assert i in Operands(io.subViews);
    }
  }

  /** The callbacks the options bind satisfy the default deallocator's
      expectation. */
  predicate OptionsDeallocCompatible(options: PromotionOptions) {
    options.deallocationFn.GetOr(DefaultDealloc).DefaultDealloc? && !options.useAlloca ==>
      options.allocationFn.GetOr(DefaultAlloc).DefaultAlloc?
  }

  /** `promoteSubViews`, the entry point: build the per-instance policy,
      then rewrite. It fails with nothing to promote exactly when the
      precondition does not hold, never on the promotion count, and leaves
      every operand it does not promote in place. */
  function PromoteSubViews(op: LinalgOp, options: PromotionOptions, layout: ElemType -> nat, ub: UpperBounds): (r: Result<Rewritten>)
    requires op.pureBuffer
    requires OptionsDeallocCompatible(options)
    ensures (r.Failure? && r.error == NothingToPromote) <==> !PromoteSubviewsPrecondition(Linalg(op), options)
    ensures !(r.Failure? && r.error == PromotedCountMismatch)
    ensures r.Success? ==> |r.value.operands| == |op.operands|
    ensures r.Success? ==> forall i: nat :: i < |op.operands| && !Promotable(op, options, i) ==>
              r.value.operands[i] == Pre(op.operands[i])
  {
    var io := MakeInstanceOptions(op, options);
    PreconditionIffSelection(op, options);
    PromoteOperands(op, io, layout, ub)
  }

  /** At the entry point, in the caller's terms: every promotable operand
      is promoted, and copied in unless it is an operand of a
      `linalg.generic` whose payload never uses it. */
  lemma EntryCopiesIn(op: LinalgOp, options: PromotionOptions, layout: ElemType -> nat, ub: UpperBounds, i: nat)
    requires op.pureBuffer && OptionsDeallocCompatible(options)
    requires Promotable(op, options, i)
    ensures PromoteSubViews(op, options, layout, ub).Success? ==>
              var r := PromoteSubViews(op, options, layout, ub).value;
              && i in r.infos
              && (NeedsCopyIn(op, i) ==> (Pre(op.operands[i]), r.infos[i].partialLocalView) in Copies(r.copyIns))
  {
    var io := MakeInstanceOptions(op, options);
    assert PromoteSubViews(op, options, layout, ub) == PromoteOperands(op, io, layout, ub);
    assert i in Operands(io.subViews);
    CopyInsOfRewrite(op, io, layout, ub);
  }

  /** At the entry point, every copy-in is of a promotable operand that is
      not an unread operand of a `linalg.generic`, into that operand's
      partial view. */
  lemma EntryCopyInsAreNeeded(op: LinalgOp, options: PromotionOptions, layout: ElemType -> nat, ub: UpperBounds)
    requires op.pureBuffer && OptionsDeallocCompatible(options)
    ensures PromoteSubViews(op, options, layout, ub).Success? ==>
              var r := PromoteSubViews(op, options, layout, ub).value;
              forall c :: c in Copies(r.copyIns) ==>
                exists k: nat :: && Promotable(op, options, k) && NeedsCopyIn(op, k)
                                 && k in r.infos && c == (Pre(op.operands[k]), r.infos[k].partialLocalView)
  {
    var io := MakeInstanceOptions(op, options);
    assert PromoteSubViews(op, options, layout, ub) == PromoteOperands(op, io, layout, ub);
    CopyInsOfRewrite(op, io, layout, ub);
  }

  /** At the entry point, when no other operand is the same subview, the op
      reads the operand's full view exactly when the caller's full-tile bit
      for it is set, and its partial view otherwise. */
  lemma EntryFullTileFlag(op: LinalgOp, options: PromotionOptions, layout: ElemType -> nat, ub: UpperBounds, i: nat)
    requires op.pureBuffer && OptionsDeallocCompatible(options)
    requires Promotable(op, options, i)
    requires forall k :: 0 <= k < |op.operands| && k != i ==> op.operands[k] != op.operands[i]
    ensures PromoteSubViews(op, options, layout, ub).Success? ==>
              var r := PromoteSubViews(op, options, layout, ub).value;
              && i in r.infos
              && r.operands[i] == if FullTileFlag(options, i) then r.infos[i].fullLocalView else r.infos[i].partialLocalView
  {
    var io := MakeInstanceOptions(op, options);
    assert PromoteSubViews(op, options, layout, ub) == PromoteOperands(op, io, layout, ub);
    assert i in Operands(io.subViews);
    PromotedViews(op, io, layout, ub, i);
    DistinctSubViewsKeepTheirFlags(op, options, i);
  }
}

=== FILE: tiling.dfy ===
/** Full-tile and partial-tile sizes of a promoted subview
    (the size loop of `promoteSubviewAsNewBuffer`). */
module Tiling {
  import opened IR

  /** Sizes of the dimensions a subview keeps, in order: the shape of the
      subview's (rank-reduced) result. */
  function KeptSizes(dims: seq<Dim>): (r: seq<Size>)
    ensures |r| <= |dims|
  {
    if |dims| == 0 then []
    else
      var rest := KeptSizes(dims[1..]);
      assert forall i :: 1 <= i < |dims| ==> dims[i] == dims[1..][i - 1];
      if dims[0].dropped then rest else [dims[0].size] + rest
  }

  /** Without rank reduction every dimension is kept, in order. */
  lemma {:induction false} KeptSizesWithoutDrops(dims: seq<Dim>)
    requires forall i :: 0 <= i < |dims| ==> !dims[i].dropped
    ensures KeptSizes(dims) == seq(|dims|, i requires 0 <= i < |dims| => dims[i].size)
  {
    if |dims| > 0 {
      assert forall i :: 1 <= i < |dims| ==> dims[i] == dims[1..][i - 1];
      KeptSizesWithoutDrops(dims[1..]);
    }
  }

  /** The kept sizes are exactly the sizes of the dimensions not dropped. */
  lemma {:induction false} KeptSizesMembers(dims: seq<Dim>)
    ensures forall i :: 0 <= i < |dims| && !dims[i].dropped ==> dims[i].size in KeptSizes(dims)
    ensures forall s :: s in KeptSizes(dims) ==> exists i :: 0 <= i < |dims| && !dims[i].dropped && dims[i].size == s
  {
    if |dims| > 0 {
      KeptSizesMembers(dims[1..]);
      assert forall i :: 1 <= i < |dims| ==> dims[i] == dims[1..][i - 1];
      forall s | s in KeptSizes(dims)
        ensures exists i :: 0 <= i < |dims| && !dims[i].dropped && dims[i].size == s
      {
        if !(s in KeptSizes(dims[1..])) {
          assert !dims[0].dropped && s == dims[0].size;
        } else {
          var i :| 0 <= i < |dims[1..]| && !dims[1..][i].dropped && dims[1..][i].size == s;
          assert dims[i + 1] == dims[1..][i];
        }
      }
    }
  }

  /** How many of the first `n` dimensions the subview keeps: the result
      dimension the size loop has reached after `n` dimensions. */
  function KeptBefore(dims: seq<Dim>, n: nat): (c: nat)
    requires n <= |dims|
    ensures c <= n
  {
    if n == 0 then 0 else KeptBefore(dims, n - 1) + (if dims[n - 1].dropped then 0 else 1)
  }

  lemma {:induction false} KeptBeforeTail(dims: seq<Dim>, n: nat)
    requires 0 < n <= |dims|
    ensures KeptBefore(dims, n) == (if dims[0].dropped then 0 else 1) + KeptBefore(dims[1..], n - 1)
  {
    if n > 1 {
      KeptBeforeTail(dims, n - 1);
      assert dims[n - 1] == dims[1..][n - 2];
    }
  }

  /** There is one kept size per dimension the subview keeps, and a kept
      dimension's size sits at the result dimension reached before it: the
      kept sizes are the kept dimensions' sizes, in order. */
  lemma {:induction false} KeptSizesPositions(dims: seq<Dim>)
    ensures |KeptSizes(dims)| == KeptBefore(dims, |dims|)
    ensures forall i :: 0 <= i < |dims| && !dims[i].dropped ==>
              KeptBefore(dims, i) < |KeptSizes(dims)| && KeptSizes(dims)[KeptBefore(dims, i)] == dims[i].size
  {
    if |dims| > 0 {
      var tail := dims[1..];
      KeptSizesPositions(tail);
      KeptBeforeTail(dims, |dims|);
      var head := if dims[0].dropped then 0 else 1;
      assert KeptSizes(dims) == (if dims[0].dropped then [] else [dims[0].size]) + KeptSizes(tail);
      forall i | 0 <= i < |dims| && !dims[i].dropped
        ensures KeptBefore(dims, i) < |KeptSizes(dims)| && KeptSizes(dims)[KeptBefore(dims, i)] == dims[i].size
      {
        if i > 0 {
          KeptBeforeTail(dims, i);
          assert dims[i] == tail[i - 1];
          assert KeptBefore(dims, i) == head + KeptBefore(tail, i - 1);
        }
      }
    }
  }

  /** Closed upper bounds the value-bounds analysis derives for dynamic size
      symbols; a symbol without an entry is one the analysis fails on. */
  type UpperBounds = map<nat, int>

  /** The analysis is sound for a run: every bound it derives holds. */
  ghost predicate BoundsSound(ub: UpperBounds, env: Env) {
    forall x :: x in ub ==> env(x) <= ub[x]
  }

  /** Full-tile size of one kept dimension: the size itself when it is a
      constant or the original size is requested, otherwise the derived
      upper bound, falling back to the (dynamic) size itself. */
  function FullSize(s: Size, useOriginalSubviewSize: bool, ub: UpperBounds): (r: Size)
    ensures s.Const? || useOriginalSubviewSize ==> r == s
    ensures r.Const? <==> s.Const? || (!useOriginalSubviewSize && s.sym in ub)
    ensures r.Dyn? ==> r == s
    ensures !s.Const? && !useOriginalSubviewSize && s.sym in ub ==> r == Const(ub[s.sym])
    ensures forall env :: BoundsSound(ub, env) ==> Eval(s, env) <= Eval(r, env)
  {
    if s.Const? || useOriginalSubviewSize then s
    else if s.sym in ub then Const(ub[s.sym])
    else s
  }

  /** Full sizes (allocation bounds) and partial sizes (actual extents),
      one pair per kept dimension. */
  datatype Tile = Tile(full: seq<Size>, partial: seq<Size>)

  function TileSizes(dims: seq<Dim>, useOriginalSubviewSize: bool, ub: UpperBounds): (t: Tile)
    ensures t.partial == KeptSizes(dims)
    ensures |t.full| == |t.partial|
    ensures forall j :: 0 <= j < |t.full| ==>
              t.full[j] == FullSize(t.partial[j], useOriginalSubviewSize, ub)
    ensures forall env, j :: BoundsSound(ub, env) && 0 <= j < |t.full| ==>
              Eval(t.partial[j], env) <= Eval(t.full[j], env)
  {
    if |dims| == 0 then Tile([], [])
    else
      var rest := TileSizes(dims[1..], useOriginalSubviewSize, ub);
      if dims[0].dropped then rest
      else
        var s := dims[0].size;
        Tile([FullSize(s, useOriginalSubviewSize, ub)] + rest.full, [s] + rest.partial)
  }

  /** A subview whose kept sizes are all constants is promoted into a buffer
      of exactly its own shape. */
  lemma StaticTileIsExact(dims: seq<Dim>, useOriginalSubviewSize: bool, ub: UpperBounds)
    requires AllConstant(KeptSizes(dims))
    ensures TileSizes(dims, useOriginalSubviewSize, ub).full == KeptSizes(dims)
  {
    var t := TileSizes(dims, useOriginalSubviewSize, ub);
    assert forall j :: 0 <= j < |t.full| ==> t.full[j] == t.partial[j];
  }
}
